=== FILE: README.md ===
# ORWL KeyFob applet, modelled in Dafny

The ORWL KeyFob is a Java Card applet. It runs on the token that pairs with
an ORWL secure desktop. The host drives the applet with command APDUs of
class 0x90. Each command is dispatched on its INS byte to a handler. A
handler runs an ordered chain of checks over a few persistent flags and byte
buffers. The first failing check decides the status word. Otherwise the
handler commits a small state update and answers 9000, sometimes with
response data.

The repository contains two builds of the applet, and both are modelled.

- **The ORWL build** (`Code/ORWL/.../ORWL_Keypair.java`, module
  `SeedKeypair`). The host and the token agree a 3DES session key by ECDH.
  The token confirms it on the sample "ORWLKEYF". The host then shares
  seedX with the token, and the token draws seedY. Save Secret Keys ends the
  pairing and raises the association flag. After that, the token accepts an
  encrypted BLE seed and answers challenge requests with a SHA-1 digest
  wrapped under seedY and the session key.
- **The ORWL_Keypair build** (`Code/ORWL_Keypair/.../ORWL_Keypair.java`,
  module `PinKeypair`). Name, serial number and UID are write-once. A
  GlobalPlatform global PIN (the CVM) gates the association commands. The
  association stores a 128-byte pairing key sent encrypted under the ECDH
  session key.

Every handler is a pure function. It maps the applet state and one command
to a `Reply`: the new state, the status word and the response bytes.
`Process` is the applet's `process` method.

The model follows the Java code closely in the places where that matters:

- Received lengths pass through the `(byte)` cast (`Bytes.JavaByte`,
  `Apdu.SignedLength`). A payload of 128 bytes or more therefore comes out
  negative.
- Exceptions other than `ISOException` go uncaught, so the runtime answers
  6F00 (`Unknown`). These are failed `Util.arrayCopy` calls, negative
  transient-array sizes, and `CryptoException` from an unset key or a
  partial block.
- The source uses no transactions. State written before such an exception
  therefore stays written. This matters for the PIN change of the
  ORWL_Keypair build.
- There is a single 3DES key slot (`desKey: Option<Bytes24>`; `None` means
  the slot was never set). Handlers point it at seedX or seedY and then back
  at the session key.

Cryptography is abstract. A `Cipher.Primitives` value carries four
functions: the 3DES block encryption and decryption, ECDH agreement and
SHA-1. `Cipher.Sound` is the only assumption made about them: 3DES under one
key is a permutation of 8-byte blocks. CBC chaining with the applets' fixed
IV (0f1e2d3c4b5a6978) is modelled on top of that. The CBC round trips are
proved, not assumed. A random seedY and a freshly generated EC key pair are
parameters of the commands that draw them.

Files:

| file | contents |
|---|---|
| `wrappers.dfy` | `Option` |
| `bytes.dfy` | bytes as `bv8`, fixed-length buffers, `(byte)` cast, `Util.arrayCopy`, block XOR |
| `apdu.dfy` | commands, APDU buffer, status words, replies, ordered guard chains |
| `cipher.dfy` | primitives, CBC with fixed IV, `doFinal`, ECDH secret expansion |
| `gp_cvm.dfy` | the GlobalPlatform CVM as the applet uses it |
| `seed_keypair.dfy`, `seed_keypair_proofs.dfy`, `seed_keypair_scenario.dfy` | the ORWL build |
| `pin_keypair.dfy`, `pin_keypair_proofs.dfy` | the ORWL_Keypair build |

## Model

| member | source | states |
|---|---|---|
| Bytes.JavaByte | Code/ORWL_Keypair/src/com/orwlkeypair/ORWL_Keypair.java:262 | `(byte) n` lies in -128..127 and is congruent to `n` modulo 256 |
| Apdu.SignedLength | Code/ORWL_Keypair/src/com/orwlkeypair/ORWL_Keypair.java:262 | the cast received length equals the payload length below 128 and is negative from 128 on |
| Apdu.Buffer | Code/ORWL/src/com/orwlkeypair/ORWL_Keypair.java:304-306 | the APDU buffer holds the received data at offset 5 (`OFFSET_CDATA`) |
| Apdu.Screen | Code/ORWL/src/com/orwlkeypair/ORWL_Keypair.java:243-246 | a command passes to dispatch exactly when its class is 0x90 and P2 is 0; a wrong class gives 6E00 before P2 is looked at, then a non-zero P2 gives 6A86 |
| Bytes.CopyInto | Code/ORWL_Keypair/src/com/orwlkeypair/ORWL_Keypair.java:263 | `Util.arrayCopy` to offset 0 keeps the destination's length, puts the source at its start and leaves the rest of the destination as it was |
| Cipher.CbcEncrypt | Code/ORWL_Keypair/src/com/orwlkeypair/ORWL_Keypair.java:167 | `ALG_DES_CBC_NOPAD` encryption keeps the length of a whole number of blocks |
| Cipher.CbcDecrypt | Code/ORWL_Keypair/src/com/orwlkeypair/ORWL_Keypair.java:167 | `ALG_DES_CBC_NOPAD` decryption keeps the length of a whole number of blocks |
| Cipher.CbcEncryptBlocks | Code/ORWL_Keypair/src/com/orwlkeypair/ORWL_Keypair.java:167 | ciphertext block i is the block cipher applied to plaintext block i masked with ciphertext block i - 1, or with the IV for the first block, as section 6.2 of NIST SP 800-38A defines CBC |
| Cipher.CbcDecryptBlocks | Code/ORWL_Keypair/src/com/orwlkeypair/ORWL_Keypair.java:167 | plaintext block i is the inverse block cipher of ciphertext block i masked with ciphertext block i - 1, or with the IV for the first block |
| Cipher.Encrypt | Code/ORWL_Keypair/src/com/orwlkeypair/ORWL_Keypair.java:549-550 | encryption under the fixed IV `IVVal` keeps the length |
| Cipher.Decrypt | Code/ORWL_Keypair/src/com/orwlkeypair/ORWL_Keypair.java:510-511 | decryption under the fixed IV `IVVal` keeps the length |
| Apdu.FirstFailure | Code/ORWL_Keypair/src/com/orwlkeypair/ORWL_Keypair.java:472-481 | a chain of `if … throwIt … else if …` checks answers the status word of the first check that fails, and passes exactly when none fails |
| Apdu.FirstFailureAppend | Code/ORWL_Keypair/src/com/orwlkeypair/ORWL_Keypair.java:470-481 | a guard chain built from two parts fails at the first part's failure, else at the second's; this is how the shared PIN gate composes with each handler's own checks |
| Cipher.CbcDecryptEncrypt | Code/ORWL/src/com/orwlkeypair/ORWL_Keypair.java:186 | CBC decryption from any chaining value undoes CBC encryption from the same value |
| Cipher.CbcEncryptDecrypt | Code/ORWL/src/com/orwlkeypair/ORWL_Keypair.java:186 | CBC encryption undoes CBC decryption, so decryption is injective |
| Cipher.RoundTrip | Code/ORWL/src/com/orwlkeypair/ORWL_Keypair.java:119 | with the fixed IV, decrypting an encryption under the same key gives the plaintext |
| Cipher.RoundTripInverse | Code/ORWL/src/com/orwlkeypair/ORWL_Keypair.java:119 | with the fixed IV, encrypting a decryption gives the ciphertext back |
| Cipher.DecryptsTo | Code/ORWL/src/com/orwlkeypair/ORWL_Keypair.java:614-617 | a ciphertext decrypts to `p` exactly when it is the encryption of `p` |
| Cipher.DoFinal | Code/ORWL_Keypair/src/com/orwlkeypair/ORWL_Keypair.java:449-450 | `doFinal` fails exactly when the key slot is unset or the input is not a whole number of blocks; otherwise it is the CBC encryption or decryption and keeps the length |
| Cipher.ExpandSecret | Code/ORWL/src/com/orwlkeypair/ORWL_Keypair.java:581-583 | the 24-byte key starts with the agreed secret |
| Cipher.ExpandSecretRepeatsPrefix | Code/ORWL/src/com/orwlkeypair/ORWL_Keypair.java:581-583 | for a secret of 12 to 24 bytes the key is the secret followed by its own first `24 - len` bytes, whatever the buffer held before |
| Cipher.AgreeKey | Code/ORWL/src/com/orwlkeypair/ORWL_Keypair.java:579-585 | a key results exactly when the agreement succeeds with at most 24 bytes, and it starts with the agreed secret |
| GpCvm.Update | Code/ORWL_Keypair/src/com/orwlkeypair/ORWL_Keypair.java:398 | `update` replaces the PIN value and changes nothing else |
| GpCvm.ResetState | Code/ORWL_Keypair/src/com/orwlkeypair/ORWL_Keypair.java:399 | `resetState` clears the verified state and changes nothing else |
| GpCvm.ResetAndUnblockState | Code/ORWL_Keypair/src/com/orwlkeypair/ORWL_Keypair.java:397 | `resetAndUnblockState` leaves the PIN unverified and unblocked with the full try count, keeping the PIN value and the limit |
| GpCvm.Verify | Code/ORWL_Keypair/src/com/orwlkeypair/ORWL_Keypair.java:454-456 | verification succeeds exactly when the PIN is not blocked and the candidate equals it; success marks the PIN verified and restores the tries; every failure leaves it unverified; a blocked CVM otherwise stays as it was, and a mismatch on an unblocked one keeps the PIN and blocks exactly when the last try is spent |
| GpCvm.UpdateAndVerify | Code/ORWL_Keypair/src/com/orwlkeypair/ORWL_Keypair.java:420-427 | after `update`, `resetState` and `verify` with the same bytes the PIN is those bytes and is verified exactly when the CVM is not blocked |
| SeedKeypair.Install | Code/ORWL/src/com/orwlkeypair/ORWL_Keypair.java:171-218 | a fresh applet has no flag set, an unset key slot and the install-time key pair |
| SeedKeypair.StoreKeyFobName | Code/ORWL/src/com/orwlkeypair/ORWL_Keypair.java:303-327 | success needs P1 = 19, no association, no name, a set key slot and a whole number of blocks below 128 bytes; the name becomes the first 19 bytes of the APDU buffer after the payload is decrypted in place over its start, so a payload of 19 bytes or more gives its first 19 decrypted bytes and a shorter one leaves header and undecrypted buffer bytes in the name; a failure changes nothing |
| SeedKeypair.GetKeyFobName | Code/ORWL/src/com/orwlkeypair/ORWL_Keypair.java:336-353 | the name is returned exactly when P1 = 0, no data is sent, and both the association and the name flag are set |
| SeedKeypair.StoreKeyFobSerial | Code/ORWL/src/com/orwlkeypair/ORWL_Keypair.java:361-374 | succeeds exactly when P1 = 0, no serial is set yet and at most 4 bytes are sent; the 0 to 4 bytes overwrite the start of the serial buffer |
| SeedKeypair.GetKeyFobSerial | Code/ORWL/src/com/orwlkeypair/ORWL_Keypair.java:383-398 | the 4-byte serial is returned exactly when P1 = 0, no data is sent and the serial flag is set |
| SeedKeypair.AssociateStatus | Code/ORWL/src/com/orwlkeypair/ORWL_Keypair.java:433-443 | with P1 = 0 and no data, 9000 means not associated and 6985 means associated |
| SeedKeypair.SeedSave | Code/ORWL/src/com/orwlkeypair/ORWL_Keypair.java:451-476 | success needs 40 bytes, association and a set key slot; the seed is the data decrypted under the slot and then under seedX; the slot ends on the session key |
| SeedKeypair.ChallengeBlock | Code/ORWL/src/com/orwlkeypair/ORWL_Keypair.java:501-502 | the 24-byte block is the SHA-1 of the first 32 seed bytes followed by that digest's first 4 bytes |
| SeedKeypair.SeedAuthenticate | Code/ORWL/src/com/orwlkeypair/ORWL_Keypair.java:485-520 | answers exactly when P1 = 0, no data and associated; the answer is the challenge block under seedY and then under the session key, and the slot ends on the session key |
| SeedKeypair.GetPublicKey | Code/ORWL/src/com/orwlkeypair/ORWL_Keypair.java:552-562 | the public point is returned exactly when not associated |
| SeedKeypair.GenerateSecretKey | Code/ORWL/src/com/orwlkeypair/ORWL_Keypair.java:570-586 | success needs no association, a payload below 128 bytes and a successful agreement; the expanded key becomes both the session key and the slot |
| SeedKeypair.ConfirmSecretKey | Code/ORWL/src/com/orwlkeypair/ORWL_Keypair.java:601-621 | 9000 exactly when 8 bytes are sent, not associated, the slot is set and the data decrypts to "ORWLKEYF"; never changes the state |
| SeedKeypair.SaveSecretKeys | Code/ORWL/src/com/orwlkeypair/ORWL_Keypair.java:629-645 | 9000 exactly when no data is sent, not associated, the slot is set and seedX is saved; it only raises the association flag |
| SeedKeypair.SaveShareSeedX | Code/ORWL/src/com/orwlkeypair/ORWL_Keypair.java:653-671 | succeeds exactly when P1 = 24, the token is not associated, the slot is set and the data is whole blocks of at most 24 bytes (0, 8, 16 or 24); the decrypted bytes overwrite the start of seedX and its flag is raised |
| SeedKeypair.RetrieveShareSeedY | Code/ORWL/src/com/orwlkeypair/ORWL_Keypair.java:680-705 | answers exactly when P1 = 0, no data, not associated, seedX saved and the slot set; the fresh seedY is kept and sent encrypted under the slot |
| SeedKeypair.RetrieveBleSeed | Code/ORWL/src/com/orwlkeypair/ORWL_Keypair.java:711-716 | succeeds only at offset 0 with a caller's buffer of 40 bytes or more, handing out the seed and leaving 40 zero bytes behind; at another offset that fits the caller's buffer the first copy hands out the seed and the wipe throws, so the seed is disclosed and kept; otherwise nothing leaves and nothing changes |
| SeedKeypair.Process | Code/ORWL/src/com/orwlkeypair/ORWL_Keypair.java:237-246 | SELECT succeeds unchanged; a class other than 0x90 gives 6E00 and a non-zero P2 gives 6A86, both with nothing changed |
| SeedKeypair.Dispatch | Code/ORWL/src/com/orwlkeypair/ORWL_Keypair.java:249-294 | an instruction outside the table gives 6D00 with nothing changed; Verify PIN (INS 13) is commented out of this build and is among them |
| SeedKeypairProofs.InstallConsistent | Code/ORWL/src/com/orwlkeypair/ORWL_Keypair.java:171-218 | the fresh applet satisfies the key-slot and flag invariant |
| SeedKeypairProofs.ProcessKeepsConsistent | Code/ORWL/src/com/orwlkeypair/ORWL_Keypair.java:237-295 | every command keeps the invariant: a set slot holds the session key, seedX saved implies a set slot, and association implies seedX saved |
| SeedKeypairProofs.PairingInstructions | Code/ORWL/src/com/orwlkeypair/ORWL_Keypair.java:274-291 | the pairing instructions are all dispatched |
| SeedKeypairProofs.AssociationIsTerminal | Code/ORWL/src/com/orwlkeypair/ORWL_Keypair.java:629-645 | no command clears the association flag |
| SeedKeypairProofs.OnlySaveSecretKeysAssociates | Code/ORWL/src/com/orwlkeypair/ORWL_Keypair.java:629-645 | the association flag rises only through Save Secret Keys with no data, a set slot and seedX saved, and that changes nothing else |
| SeedKeypairProofs.AssociatedRefusesPairing | Code/ORWL/src/com/orwlkeypair/ORWL_Keypair.java:552-705 | once associated, every pairing instruction fails and leaves the state unchanged |
| SeedKeypairProofs.OnlySaveSeedXRecordsSeedX | Code/ORWL/src/com/orwlkeypair/ORWL_Keypair.java:653-671 | the seedX flag rises only through Save SeedX with P1 = 24, before association and with a set slot |
| SeedKeypairProofs.SeedYNeedsSeedX | Code/ORWL/src/com/orwlkeypair/ORWL_Keypair.java:680-692 | Get SeedY is refused with 6985 and no change until seedX is saved |
| SeedKeypairProofs.StoreNameGuardOrder | Code/ORWL/src/com/orwlkeypair/ORWL_Keypair.java:308-317 | Store Name checks P1 = 19 (6700), then association (6669), then an existing name (6985); the first failing check decides and nothing changes |
| SeedKeypairProofs.StoreNameKeepsFirst19 | Code/ORWL/src/com/orwlkeypair/ORWL_Keypair.java:318-325 | a name sent as the encryption of 19 to 127 whole-block bytes is stored as exactly the first 19 plaintext bytes |
| SeedKeypairProofs.NameWriteOnce | Code/ORWL/src/com/orwlkeypair/ORWL_Keypair.java:316-317 | once the name is set, no command changes it or its flag |
| SeedKeypairProofs.SerialWriteOnce | Code/ORWL/src/com/orwlkeypair/ORWL_Keypair.java:361-374 | once the serial is set, no command changes it or its flag |
| SeedKeypairProofs.SerialRoundTrip | Code/ORWL/src/com/orwlkeypair/ORWL_Keypair.java:361-398 | a 4-byte serial stored in plain is read back unchanged |
| SeedKeypairProofs.NameReadBack | Code/ORWL/src/com/orwlkeypair/ORWL_Keypair.java:336-353 | a stored name is withheld with 6669 before association and returned exactly as stored after it |
| SeedKeypairProofs.GeneratedKeyLayout | Code/ORWL/src/com/orwlkeypair/ORWL_Keypair.java:570-586 | after Generate Secret Key the session key and the slot are the agreed secret followed by its own leading bytes |
| SeedKeypairProofs.ConfirmIffEncryptedSample | Code/ORWL/src/com/orwlkeypair/ORWL_Keypair.java:601-621 | confirmation succeeds exactly when the host sent the encryption of "ORWLKEYF" under the slot's key; any other 8 bytes give 9405 |
| SeedKeypairProofs.SeedSaveRoundTrip | Code/ORWL/src/com/orwlkeypair/ORWL_Keypair.java:451-476 | a seed sent encrypted under seedX and then the session key is stored as sent |
| SeedKeypairProofs.SeedAuthenticateRoundTrip | Code/ORWL/src/com/orwlkeypair/ORWL_Keypair.java:485-520 | the host recovers the challenge block by decrypting the answer under the session key and then seedY |
| SeedKeypairProofs.Run | Code/ORWL/src/com/orwlkeypair/ORWL_Keypair.java:237-295 | over any sequence of commands, association and a set name are kept |
| SeedKeypairProofs.RunKeepsConsistent | Code/ORWL/src/com/orwlkeypair/ORWL_Keypair.java:237-295 | the key-slot and flag invariant holds after any sequence of commands |
| SeedKeypairProofs.Routes | Code/ORWL/src/com/orwlkeypair/ORWL_Keypair.java:249-294 | with class 90 and P2 = 0, each of the thirteen instruction bytes reaches its own handler, and INS 13 is refused with 6D00 |
| SeedKeypairProofs.EmptyNameStoresHeader | Code/ORWL/src/com/orwlkeypair/ORWL_Keypair.java:318-327 | a Store Name accepted with no data keeps the APDU header (class, INS, P1, P2, and P3 modelled as the received length, 0) and the next 14 buffer bytes as the name |
| SeedKeypairProofs.UnsavedSeedIsZeros | Code/ORWL/src/com/orwlkeypair/ORWL_Keypair.java:711-716 | on a fresh token a retrieval at offset 0 succeeds and hands out 40 zero bytes |
| SeedKeypairProofs.SavedSeedHandedOutOnce | Code/ORWL/src/com/orwlkeypair/ORWL_Keypair.java:711-716 | a seed saved by Seed Save is handed out by the first retrieval at offset 0, and the next retrieval hands out 40 zero bytes |
| SeedKeypairProofs.MisplacedRetrievalKeepsSeed | Code/ORWL/src/com/orwlkeypair/ORWL_Keypair.java:711-716 | at a non-zero offset that fits the caller's buffer the seed is handed out, the wipe throws and the seed stays stored |
| SeedKeypairScenario.Send | Code/ORWL/src/com/orwlkeypair/ORWL_Keypair.java:243-246 | a sent command carries class 0x90 and P2 = 0 |
| SeedKeypairScenario.Handshake | Code/ORWL/src/com/orwlkeypair/ORWL_Keypair.java:552-671 | from installation, Get Public Key, Generate Secret Key, Confirm and Save SeedX all succeed, and seedX holds what the host sent |
| SeedKeypairScenario.Association | Code/ORWL/src/com/orwlkeypair/ORWL_Keypair.java:451-520 | after the handshake the host recovers seedY; challenges are refused before association; a second Save Secret Keys is refused; the stored seed answers challenges the host can check |
| PinKeypair.Install | Code/ORWL_Keypair/src/com/orwlkeypair/ORWL_Keypair.java:157-172 | a fresh applet has no flag set, an unset key slot, no key pair and the platform's CVM |
| PinKeypair.FieldBytes | Code/ORWL_Keypair/src/com/orwlkeypair/ORWL_Keypair.java:88-96 | the name buffer has 255 bytes, the serial and UID buffers 16 |
| PinKeypair.WithField | Code/ORWL_Keypair/src/com/orwlkeypair/ORWL_Keypair.java:254-352 | writing one identity field sets it and its flag and leaves the other two fields and flags alone |
| PinKeypair.StoreField | Code/ORWL_Keypair/src/com/orwlkeypair/ORWL_Keypair.java:254-266 | success needs P1 = 0, an unset field and a length below 128 that fits the buffer; a failure changes nothing |
| PinKeypair.ReadField | Code/ORWL_Keypair/src/com/orwlkeypair/ORWL_Keypair.java:274-289 | the full buffer is returned exactly when P1 = 0, no data is sent and the field's flag is set |
| PinKeypair.ParseAndUpdateCvmPin | Code/ORWL_Keypair/src/com/orwlkeypair/ORWL_Keypair.java:383-414 | touches only the CVM and the PIN flag; the first PIN is the 6 plain bytes; a later one needs an unblocked, verified PIN and a set slot; a 6F00 on a later change leaves the CVM unblocked with full tries, and below 128 bytes also holding the raw data as its verified PIN |
| PinKeypair.VerifyCvm | Code/ORWL_Keypair/src/com/orwlkeypair/ORWL_Keypair.java:435-458 | touches only the CVM; 9000 exactly when P1 = 6, a PIN is set, the slot is set and the first six decrypted bytes verify |
| PinKeypair.PinGate | Code/ORWL_Keypair/src/com/orwlkeypair/ORWL_Keypair.java:474-479 | the PIN checks fail in the order blocked (9D61), no PIN (9802), not verified (9840), and pass exactly for an unblocked, set, verified PIN |
| PinKeypair.AssociateStatus | Code/ORWL_Keypair/src/com/orwlkeypair/ORWL_Keypair.java:466-482 | 9000 exactly when P1 = 0, no data, the PIN gate passes and not associated |
| PinKeypair.StorePairingKey | Code/ORWL_Keypair/src/com/orwlkeypair/ORWL_Keypair.java:490-517 | succeeds exactly when P1 = 128, the PIN gate passes, the token is not associated, the slot is set and the data is whole blocks of at most 128 bytes; the pairing key is the decryption padded with zeros, and association is raised |
| PinKeypair.GetPairedKey | Code/ORWL_Keypair/src/com/orwlkeypair/ORWL_Keypair.java:527-556 | answers exactly when P1 = 0, no data, the PIN gate passes, associated and the slot set; the answer is the pairing key encrypted under the slot |
| PinKeypair.GetPublicKey | Code/ORWL_Keypair/src/com/orwlkeypair/ORWL_Keypair.java:588-616 | always installs a new key pair and returns its public point |
| PinKeypair.GenerateSecretKey | Code/ORWL_Keypair/src/com/orwlkeypair/ORWL_Keypair.java:624-638 | succeeds exactly when the payload is below 128 bytes, a key pair was generated and the agreement yields at most 24 bytes; the expanded key becomes the session key and the slot |
| PinKeypair.Process | Code/ORWL_Keypair/src/com/orwlkeypair/ORWL_Keypair.java:191-201 | SELECT succeeds unchanged; a class other than 0x90 gives 6E00 and a non-zero P2 gives 6A86 |
| PinKeypair.Dispatch | Code/ORWL_Keypair/src/com/orwlkeypair/ORWL_Keypair.java:243-244 | an instruction outside the table gives 6D00 with nothing changed |
| PinKeypairProofs.ProcessKeepsConsistent | Code/ORWL_Keypair/src/com/orwlkeypair/ORWL_Keypair.java:624-638 | a set key slot always holds the stored session key |
| PinKeypairProofs.IdentityWriteOnce | Code/ORWL_Keypair/src/com/orwlkeypair/ORWL_Keypair.java:254-352 | once a name, serial or UID is set, no command changes it or its flag |
| PinKeypairProofs.DispatchKeepsIdentity | Code/ORWL_Keypair/src/com/orwlkeypair/ORWL_Keypair.java:203-245 | no dispatched handler changes a set identity field |
| PinKeypairProofs.StoreTwiceRefused | Code/ORWL_Keypair/src/com/orwlkeypair/ORWL_Keypair.java:259-260 | a second store of a set field is refused with 6985 and changes nothing |
| PinKeypairProofs.FieldsIndependent | Code/ORWL_Keypair/src/com/orwlkeypair/ORWL_Keypair.java:297-309 | whatever another field holds, storing one field gives the same status word and the same stored bytes |
| PinKeypairProofs.StoreFieldKeepsOthers | Code/ORWL_Keypair/src/com/orwlkeypair/ORWL_Keypair.java:297-309 | storing one field leaves the bytes and the flag of every other field as they were |
| PinKeypairProofs.StoreFieldReadsOnlyItsField | Code/ORWL_Keypair/src/com/orwlkeypair/ORWL_Keypair.java:254-266 | two states that agree on a field's bytes and flag give the same status word and stored bytes for a store of that field |
| PinKeypairProofs.IdentityRoundTrip | Code/ORWL_Keypair/src/com/orwlkeypair/ORWL_Keypair.java:340-375 | a field stored with `x` reads back as its full buffer starting with `x`; a 16-byte serial or UID reads back exactly |
| PinKeypairProofs.LongNameRefused | Code/ORWL_Keypair/src/com/orwlkeypair/ORWL_Keypair.java:262-263 | a name of 128 bytes or more gets a negative cast length, so the copy throws (6F00) and nothing is stored |
| PinKeypairProofs.AssociateStatusGuardOrder | Code/ORWL_Keypair/src/com/orwlkeypair/ORWL_Keypair.java:466-482 | checks run in the order P1 (6A86), length (6700), blocked (9D61), no PIN (9802), not verified (9840), associated (6985); the first failure decides, and otherwise the answer is 9000 |
| PinKeypairProofs.PairingGates | Code/ORWL_Keypair/src/com/orwlkeypair/ORWL_Keypair.java:496-505 | the pairing-key checks evaluate to the first failing one in source order |
| PinKeypairProofs.StorePairingKeyGuardOrder | Code/ORWL_Keypair/src/com/orwlkeypair/ORWL_Keypair.java:496-505 | Store Pairing Key checks P1 = 128 (6700), then the PIN gate, then association (6985); a failing check changes nothing |
| PinKeypairProofs.StorePairingKeyRoundTrip | Code/ORWL_Keypair/src/com/orwlkeypair/ORWL_Keypair.java:490-517 | a 128-byte key sent encrypted is stored as sent and associates the token; a repeat is refused with 6985 |
| PinKeypairProofs.PairedKeyRoundTrip | Code/ORWL_Keypair/src/com/orwlkeypair/ORWL_Keypair.java:527-556 | decrypting the Read Key answer under the slot gives the stored pairing key |
| PinKeypairProofs.PairingKeyEndToEnd | Code/ORWL_Keypair/src/com/orwlkeypair/ORWL_Keypair.java:490-556 | a pairing key stored and then read under the same key comes back to the host unchanged |
| PinKeypairProofs.AssociationIsTerminal | Code/ORWL_Keypair/src/com/orwlkeypair/ORWL_Keypair.java:490-517 | no command clears the association flag or changes the pairing key after association |
| PinKeypairProofs.OnlyStorePairingKeyAssociates | Code/ORWL_Keypair/src/com/orwlkeypair/ORWL_Keypair.java:490-517 | association rises only through Store Pairing Key with P1 = 128 behind a set, unblocked, verified PIN |
| PinKeypairProofs.FirstPinStore | Code/ORWL_Keypair/src/com/orwlkeypair/ORWL_Keypair.java:383-391 | the first PIN needs P1 = 6 and 6 bytes (else 6700); it is installed in plain, recorded, and verified exactly when the CVM is not blocked |
| PinKeypairProofs.LaterPinStoreGuards | Code/ORWL_Keypair/src/com/orwlkeypair/ORWL_Keypair.java:388-395 | a later PIN store checks P1 = 6 (6700), then blocked (9D61), then verified (9840), with nothing changed on failure |
| PinKeypairProofs.PinChange | Code/ORWL_Keypair/src/com/orwlkeypair/ORWL_Keypair.java:396-413 | a new PIN sent as the encryption of one block becomes that block's first six bytes and is left verified |
| PinKeypairProofs.PinChangeFailureKeepsRawPin | Code/ORWL_Keypair/src/com/orwlkeypair/ORWL_Keypair.java:396-409 | assuming the CVM accepts any value as a new PIN, a PIN change whose data is not whole blocks answers 6F00 but leaves the raw data installed as the verified PIN |
| PinKeypairProofs.VerifyCvmGuardOrder | Code/ORWL_Keypair/src/com/orwlkeypair/ORWL_Keypair.java:440-445 | Verify PIN checks P1 = 6 (6700), then a set PIN (9802), then a set slot (6669), with nothing changed on failure |
| PinKeypairProofs.VerifyCvmMatch | Code/ORWL_Keypair/src/com/orwlkeypair/ORWL_Keypair.java:446-456 | an encrypted block verifies exactly when its first six bytes are the PIN and the PIN is not blocked; otherwise the answer is 9840 |
| PinKeypairProofs.ProcessRouting | Code/ORWL_Keypair/src/com/orwlkeypair/ORWL_Keypair.java:191-246 | a wrong class gives 6E00, a non-zero P2 gives 6A86 and an unlisted INS gives 6D00, each with nothing changed |
| PinKeypairProofs.KeySetup | Code/ORWL_Keypair/src/com/orwlkeypair/ORWL_Keypair.java:588-638 | from any state, Get Public Key answers the new point, and a following Generate Secret Key whose agreement yields 12 to 24 bytes answers 9000 and keys the session key and the slot with the secret followed by its own leading bytes |
| PinKeypairProofs.GenerateSecretKeyIgnoresAssociation | Code/ORWL_Keypair/src/com/orwlkeypair/ORWL_Keypair.java:624-638 | Generate Secret Key answers and keys the slot the same way whether or not the token is associated |
| PinKeypairProofs.Run | Code/ORWL_Keypair/src/com/orwlkeypair/ORWL_Keypair.java:191-246 | over any sequence of commands, association and the pairing key are kept |
| PinKeypairProofs.RunKeepsIdentity | Code/ORWL_Keypair/src/com/orwlkeypair/ORWL_Keypair.java:254-352 | a set identity field is kept over any sequence of commands |
| PinKeypairProofs.Routes | Code/ORWL_Keypair/src/com/orwlkeypair/ORWL_Keypair.java:203-245 | with class 90 and P2 = 0, each of the thirteen instruction bytes reaches its own handler, the three identity fields sharing one store and one read handler |

## Behaviour worth noting

- `RetrieveBleSeed` has no availability check. A seed never saved, or
  already retrieved, is handed out as 40 zero bytes (`UnsavedSeedIsZeros`,
  `SavedSeedHandedOutOnce`).
- `RetrieveBleSeed` uses its offset both for the caller's buffer and for
  the wipe of its own 40-byte seed. At a non-zero offset the seed is copied
  out first and the wipe then throws, so the seed is disclosed and kept
  (`MisplacedRetrievalKeepsSeed`).
- The PIN change of the ORWL_Keypair build is not atomic. The CVM is
  unblocked, and the raw (still encrypted) data is handed to the CVM as the
  new PIN and verified, before the data is decrypted. The results of that
  update and verify are ignored. Assuming the CVM accepts any value as a
  PIN, a decryption failure answers 6F00 and keeps the raw data as the
  verified PIN (`PinChangeFailureKeepsRawPin`).
- Store Name of the ORWL build decrypts in place over the start of the APDU
  buffer and keeps its first 19 bytes. A payload shorter than 19 bytes
  therefore leaves APDU header bytes and undecrypted bytes in the name
  (`EmptyNameStoresHeader`).

## Left out

- APDU transport: `setIncomingAndReceive`, `setOutgoing*`, `sendBytesLong`, `install` and `register`. These become the `Command` value and the `Reply` data.
- `ORWL_BLESeed.java` and `ORWL_Interface.java`: AID lookup and shareable-object plumbing with no logic of their own. The token side is covered by `SeedKeypair.RetrieveBleSeed`; of the caller's buffer only its length is modelled.
- 3DES, ECDH on the 192-bit curve with its domain constants, SHA-1 and `RandomData`. These are abstract functions. Only the 3DES block round trip is assumed.
- ECDH symmetry: the host's agreement is not modelled, so the scenario lemmas take the token's agreed secret as given.
- GlobalPlatform CVM internals: `GpCvm` assumes a simple try counter that blocks at zero and refills on success. The real policy belongs to the platform.
- The CVM code commented out in the ORWL build (`verifyCVM` and the PIN checks inside other handlers) is not modelled, because it does not run.
- Session and card resets: transient arrays and the CVM's verified state across power cycles are not modelled.
- Constant-time comparison and the other side channels of `Util.arrayCompare` and the CVM are not modelled.
- `SeedKeypair.StoreKeyFobName`: the bytes of the APDU buffer after the received data are a free `residue`, not the platform's actual buffer contents. The real buffer is always longer than 19 bytes; the model's can be shorter, and then the copy answers 6F00.
- `GpCvm.Update`: assumed to accept any value as the new PIN. The source ignores the results of `cvm.update` and `cvm.verify` (ORWL_Keypair.java:398 and :401 of the ORWL_Keypair build); on a platform that refuses a raw ciphertext as a PIN the old PIN would stay and the verify would cost a try, which is not modelled.
- `PinKeypair.ParseAndUpdateCvmPin`: a PIN change of 128 bytes or more hands `update` and `verify` a negative `(byte)` length (ORWL_Keypair.java:398-401 of the ORWL_Keypair build). `update` and `verify` are assumed to refuse a negative length with no effect, so only the unblocking stays before the allocation at :406 throws. What a platform does with that length is not modelled.
- `Apdu.Buffer`: byte 4 of the APDU buffer (P3) is modelled as the received data length. For a command sent with no data but with an Le byte, a card holds Le there; `Command` carries no Le, so that case is not modelled.
- `GpCvm.Verify`: the answer's try-counter bookkeeping is stated only as "blocked exactly when no try is left". `getTriesRemaining`, which is written into the response buffer but never sent, is not modelled.

=== FILE: apdu.dfy ===
/** Command and response APDUs as the applet sees them (ISO/IEC 7816-4),
    the status words it can answer with, and ordered guard chains. */
module Apdu {
  import opened Wrappers
  import opened Bytes

  /** The only class byte either applet accepts. */
  const Cla: byte := 0x90

  /** Offset of the command data in the APDU buffer (ISO7816.OFFSET_CDATA). */
  const OffsetCdata := 5

  /** Short APDUs carry at most 255 data bytes (Lc is one byte). */
  type Payload = s: seq<byte> | |s| <= 255

  /** One command APDU after `setIncomingAndReceive`: the four header bytes,
      the received data, and whatever the rest of the card's APDU buffer
      still holds from earlier traffic (`residue`). */
  datatype Command = Command(cla: byte, ins: byte, p1: byte, p2: byte, data: Payload, residue: seq<byte>)

  /** What the runtime hands to `process`: the SELECT of this applet, or a command. */
  datatype Incoming = Select | Cmd(cmd: Command)

  /** The APDU buffer as `apdu.getBuffer()` returns it once the data is received. */
  function Buffer(c: Command): (b: seq<byte>)
    ensures |b| == OffsetCdata + |c.data| + |c.residue|
    ensures b[OffsetCdata..OffsetCdata + |c.data|] == c.data
  {
    [c.cla, c.ins, c.p1, c.p2, |c.data| as bv8] + c.data + c.residue
  }

  /** The value of `(byte) apdu.setIncomingAndReceive()`: payloads of 128
      bytes or more come out negative. */
  function SignedLength(c: Command): (n: int)
    ensures |c.data| < 128 ==> n == |c.data|
    ensures |c.data| >= 128 ==> n < 0
  {
    JavaByteOfLength(|c.data|);
    JavaByte(|c.data|)
  }

  /** The checks `process` makes before dispatching: class 0x90 (else
      6E00), then P2 = 0 (else 6A86). */
  function Screen(c: Command): (w: Option<StatusWord>)
    ensures w.None? <==> c.cla == Cla && c.p2 == 0
    ensures c.cla != Cla ==> w == Some(ClaNotSupported)
    ensures c.cla == Cla && c.p2 != 0 ==> w == Some(IncorrectP1P2)
  {
    if c.cla != Cla then Some(ClaNotSupported)
    else if c.p2 != 0 then Some(IncorrectP1P2)
    else None
  }

  /** Status words. The first six are the ISO/IEC 7816-4 values named in
      `javacard.framework.ISO7816`; `Unknown` is what the Java Card runtime
      answers when `process` ends with an exception other than an
      `ISOException`; the rest are the applets' own codes. */
  datatype StatusWord =
    | Ok                      // 9000
    | WrongLength             // 6700
    | ConditionsNotSatisfied  // 6985
    | IncorrectP1P2           // 6A86
    | InsNotSupported         // 6D00
    | ClaNotSupported         // 6E00
    | Unknown                 // 6F00
    | KeyNotReady             // 6669
    | SecretMismatch          // 9405
    | PinNotSet               // 9802
    | PinNotVerified          // 9840
    | PinBlocked              // 9D61

  /** The result of one command: the applet state afterwards, the status
      word and the response data. */
  datatype Reply<S> = Reply(state: S, sw: StatusWord, data: seq<byte>)

  /** A refused command: no response data and, unless the handler says
      otherwise, the state it was given. */
  function Refuse<S>(s: S, sw: StatusWord): (r: Reply<S>)
    ensures r.state == s && r.sw == sw && r.data == []
  {
    Reply(s, sw, [])
  }

  /** One check of a handler's guard chain: when `fails` holds the handler
      throws `sw`. */
  datatype Guard = Guard(fails: bool, sw: StatusWord)

  /** The status word of the first failing check, if any: the reference
      reading of a chain of `if … throwIt … else if …` guards. */
  function FirstFailure(gs: seq<Guard>): (w: Option<StatusWord>)
    ensures w.None? <==> forall i :: 0 <= i < |gs| ==> !gs[i].fails
    ensures w.Some? ==> exists i :: 0 <= i < |gs| && gs[i].fails && gs[i].sw == w.value
                                    && forall j :: 0 <= j < i ==> !gs[j].fails
  {
    if |gs| == 0 then None
    else if gs[0].fails then Some(gs[0].sw)
    else
      FirstFailure(gs[1..])
  }

  /** The first failure of a concatenation is the first failure of the
      front part, or else that of the back part. */
  lemma {:induction false} FirstFailureAppend(a: seq<Guard>, b: seq<Guard>)
    ensures FirstFailure(a + b) == if FirstFailure(a).Some? then FirstFailure(a) else FirstFailure(b)
    decreases |a|
  {
    if |a| != 0 {
      assert (a + b)[0] == a[0];
      assert (a + b)[1..] == a[1..] + b;
      FirstFailureAppend(a[1..], b);
    } else {
      assert a + b == b;
    }
  }
}

=== FILE: bytes.dfy ===
/** Byte sequences as the Java Card applet sees them: unsigned byte values,
    fixed-length arrays, the `(byte)` narrowing cast and `Util.arrayCopy`. */
module Bytes {

  /** A byte as eight bits. Java compares `byte` values after sign
      extension, which is a bijection on bit patterns, so equality tests on
      bit patterns decide the same way. */
  type byte = bv8

  function Zeros(n: nat): (z: seq<byte>)
    ensures |z| == n
    ensures forall i :: 0 <= i < n ==> z[i] == 0
  {
    seq(n, _ => 0)
  }

  /** One 3DES block. */
  type Block = s: seq<byte> | |s| == 8 witness Zeros(8)

  /** A 3-key triple-DES key, and every other 24-byte buffer of the applet. */
  type Bytes24 = s: seq<byte> | |s| == 24 witness Zeros(24)

  /** The value of the Java expression `(byte) n`: the low eight bits of
      `n`, read as a two's-complement number. */
  function JavaByte(n: int): (b: int)
    ensures -128 <= b < 128
    ensures (n - b) % 256 == 0
  {
    var m := n % 256;
    if m < 128 then m else m - 256
  }

  /** `Util.arrayCopy(src, 0, dst, 0, |src|)`: the first |src| bytes of
      `dst` are replaced, the rest are kept. */
  function CopyInto(dst: seq<byte>, src: seq<byte>): (r: seq<byte>)
    requires |src| <= |dst|
    ensures |r| == |dst|
    ensures r[..|src|] == src
    ensures r[|src|..] == dst[|src|..]
  {
    src + dst[|src|..]
  }

  /** Byte-wise exclusive or of two blocks. */
  function Xor(a: Block, b: Block): (c: Block)
    ensures forall i :: 0 <= i < 8 ==> c[i] == a[i] ^ b[i]
  {
    seq(8, i requires 0 <= i < 8 => a[i] ^ b[i])
  }

  /** Masking a block with the same chaining value twice gives it back;
      this is what lets CBC decryption undo CBC encryption. */
  lemma XorCancels(a: Block, b: Block)
    ensures Xor(Xor(a, b), b) == a
  {
    forall i | 0 <= i < 8
      ensures Xor(Xor(a, b), b)[i] == a[i]
    {
      assert (a[i] ^ b[i]) ^ b[i] == a[i];
    }
  }

  /** The narrowing cast keeps lengths below 128 and turns 128..255 into
      negative numbers, the reason several handlers reject long payloads. */
  lemma JavaByteOfLength(n: int)
    requires 0 <= n < 256
    ensures n < 128 ==> JavaByte(n) == n
    ensures 128 <= n ==> JavaByte(n) == n - 256 && JavaByte(n) < 0
  {
  }
}

=== FILE: cipher.dfy ===
/** The applets' cryptographic layer: the single 3DES key slot used in CBC
    mode without padding and with a fixed IV, ECDH key agreement with the
    expansion of the agreed secret to a 3DES key, and SHA-1.

    The primitives themselves (the 3DES block permutation, the elliptic-curve
    agreement, SHA-1) are not modelled: they arrive as a `Primitives` record
    of functions, and `Sound` is the only thing assumed about them. The CBC
    chaining around the block permutation is modelled. */
module Cipher {
  import opened Wrappers
  import opened Bytes

  /** The fixed CBC initialisation vector both applets pass to `Cipher.init`. */
  const Iv: Block := [0x0f, 0x1e, 0x2d, 0x3c, 0x4b, 0x5a, 0x69, 0x78]

  /** A SHA-1 digest (`MessageDigest.ALG_SHA`). */
  type Digest = s: seq<byte> | |s| == 20 witness Zeros(20)

  /** An uncompressed point on the 192-bit curve: 0x04, then X and Y. */
  type Point = s: seq<byte> | |s| == 49 witness Zeros(49)

  datatype EcKeyPair = EcKeyPair(priv: seq<byte>, pub: Point)

  datatype Primitives = Primitives(
    /** 3-key triple DES on one block. */
    desEncrypt: (Bytes24, Block) -> Block,
    desDecrypt: (Bytes24, Block) -> Block,
    /** `KeyAgreement.ALG_EC_SVDP_DH`: private key and peer point give the
        agreed secret, or `None` when the agreement throws (e.g. the peer
        bytes are not a point on the curve). */
    ecdh: (seq<byte>, seq<byte>) -> Option<seq<byte>>,
    sha1: seq<byte> -> Digest)

  /** Triple DES under one key is a permutation of blocks. */
  ghost predicate Sound(cr: Primitives)
  {
    && (forall k, b :: cr.desDecrypt(k, cr.desEncrypt(k, b)) == b)
    && (forall k, b :: cr.desEncrypt(k, cr.desDecrypt(k, b)) == b)
  }

  /** CBC encryption (NIST SP 800-38A section 6.2) with chaining value `iv`. */
  function CbcEncrypt(cr: Primitives, k: Bytes24, iv: Block, p: seq<byte>): (c: seq<byte>)
    requires |p| % 8 == 0
    ensures |c| == |p|
    decreases |p|
  {
    if |p| == 0 then []
    else
      var head := cr.desEncrypt(k, Xor(p[..8], iv));
      head + CbcEncrypt(cr, k, head, p[8..])
  }

  /** Block `i` of a whole number of blocks. */
  function BlockAt(s: seq<byte>, i: nat): (b: Block)
    requires |s| % 8 == 0 && i < |s| / 8
  {
    s[8 * i..8 * i + 8]
  }

  /** CBC encryption block by block, as NIST SP 800-38A section 6.2 defines
      it: ciphertext block i is the cipher of plaintext block i masked with
      ciphertext block i - 1, or with the IV for the first block. */
  lemma {:induction false} CbcEncryptBlocks(cr: Primitives, k: Bytes24, iv: Block, p: seq<byte>, i: nat)
    requires |p| % 8 == 0 && i < |p| / 8
    ensures var c := CbcEncrypt(cr, k, iv, p);
            BlockAt(c, i) == cr.desEncrypt(k, Xor(BlockAt(p, i), if i == 0 then iv else BlockAt(c, i - 1)))
    decreases i
  {
    var head := cr.desEncrypt(k, Xor(p[..8], iv));
    var c := CbcEncrypt(cr, k, iv, p);
    var tail := CbcEncrypt(cr, k, head, p[8..]);
    assert c == head + tail;
    if i > 0 {
      CbcEncryptBlocks(cr, k, head, p[8..], i - 1);
      assert BlockAt(c, i) == BlockAt(tail, i - 1);
      assert BlockAt(p, i) == BlockAt(p[8..], i - 1);
      if i > 1 {
        assert BlockAt(c, i - 1) == BlockAt(tail, i - 2);
      } else {
        assert BlockAt(c, 0) == head;
      }
    }
  }

  /** CBC decryption block by block: plaintext block i is the inverse
      cipher of ciphertext block i masked with ciphertext block i - 1, or
      with the IV for the first block. */
  lemma {:induction false} CbcDecryptBlocks(cr: Primitives, k: Bytes24, iv: Block, c: seq<byte>, i: nat)
    requires |c| % 8 == 0 && i < |c| / 8
    ensures BlockAt(CbcDecrypt(cr, k, iv, c), i)
            == Xor(cr.desDecrypt(k, BlockAt(c, i)), if i == 0 then iv else BlockAt(c, i - 1))
    decreases i
  {
    var head: Block := c[..8];
    var p := CbcDecrypt(cr, k, iv, c);
    var tail := CbcDecrypt(cr, k, head, c[8..]);
    assert p == Xor(cr.desDecrypt(k, head), iv) + tail;
    if i > 0 {
      CbcDecryptBlocks(cr, k, head, c[8..], i - 1);
      assert BlockAt(p, i) == BlockAt(tail, i - 1);
      assert BlockAt(c, i) == BlockAt(c[8..], i - 1);
      if i > 1 {
        assert BlockAt(c, i - 1) == BlockAt(c[8..], i - 2);
      } else {
        assert BlockAt(c, 0) == head;
      }
    }
  }

  /** CBC decryption with chaining value `iv`. */
  function CbcDecrypt(cr: Primitives, k: Bytes24, iv: Block, c: seq<byte>): (p: seq<byte>)
    requires |c| % 8 == 0
    ensures |p| == |c|
    decreases |c|
  {
    if |c| == 0 then []
    else
      var head: Block := c[..8];
      Xor(cr.desDecrypt(k, head), iv) + CbcDecrypt(cr, k, head, c[8..])
  }

  lemma {:induction false} CbcDecryptEncrypt(cr: Primitives, k: Bytes24, iv: Block, p: seq<byte>)
    requires Sound(cr)
    requires |p| % 8 == 0
    ensures CbcDecrypt(cr, k, iv, CbcEncrypt(cr, k, iv, p)) == p
    decreases |p|
  {
    if |p| != 0 {
      var m: Block := p[..8];
      var head := cr.desEncrypt(k, Xor(m, iv));
      var rest := CbcEncrypt(cr, k, head, p[8..]);
      var c: seq<byte> := head + rest;
      assert c[..8] == head && c[8..] == rest;
      XorCancels(m, iv);
      CbcDecryptEncrypt(cr, k, head, p[8..]);
      assert p == m + p[8..];
    }
  }

  lemma {:induction false} CbcEncryptDecrypt(cr: Primitives, k: Bytes24, iv: Block, c: seq<byte>)
    requires Sound(cr)
    requires |c| % 8 == 0
    ensures CbcEncrypt(cr, k, iv, CbcDecrypt(cr, k, iv, c)) == c
    decreases |c|
  {
    if |c| != 0 {
      var head: Block := c[..8];
      var m := Xor(cr.desDecrypt(k, head), iv);
      var rest := CbcDecrypt(cr, k, head, c[8..]);
      var p: seq<byte> := m + rest;
      assert p[..8] == m && p[8..] == rest;
      XorCancels(cr.desDecrypt(k, head), iv);
      CbcEncryptDecrypt(cr, k, head, c[8..]);
      assert c == head + c[8..];
    }
  }

  /** Encryption and decryption as every handler performs them: CBC from
      the fixed IV. */
  function Encrypt(cr: Primitives, k: Bytes24, p: seq<byte>): (c: seq<byte>)
    requires |p| % 8 == 0
    ensures |c| == |p|
  {
    CbcEncrypt(cr, k, Iv, p)
  }

  function Decrypt(cr: Primitives, k: Bytes24, c: seq<byte>): (p: seq<byte>)
    requires |c| % 8 == 0
    ensures |p| == |c|
  {
    CbcDecrypt(cr, k, Iv, c)
  }

  /** Decrypting under the key that encrypted gives the plaintext back. */
  lemma RoundTrip(cr: Primitives, k: Bytes24, p: seq<byte>)
    requires Sound(cr)
    requires |p| % 8 == 0
    ensures Decrypt(cr, k, Encrypt(cr, k, p)) == p
  {
    CbcDecryptEncrypt(cr, k, Iv, p);
  }

  /** Encrypting a decryption gives the ciphertext back, so decryption under
      a fixed key is injective. */
  lemma RoundTripInverse(cr: Primitives, k: Bytes24, c: seq<byte>)
    requires Sound(cr)
    requires |c| % 8 == 0
    ensures Encrypt(cr, k, Decrypt(cr, k, c)) == c
  {
    CbcEncryptDecrypt(cr, k, Iv, c);
  }

  /** The only ciphertext that decrypts to `p` under `k` is the encryption
      of `p`. */
  lemma DecryptsTo(cr: Primitives, k: Bytes24, c: seq<byte>, p: seq<byte>)
    requires Sound(cr)
    requires |c| % 8 == 0 && |p| % 8 == 0
    ensures Decrypt(cr, k, c) == p <==> c == Encrypt(cr, k, p)
  {
    if Decrypt(cr, k, c) == p {
      RoundTripInverse(cr, k, c);
    }
    if c == Encrypt(cr, k, p) {
      RoundTrip(cr, k, p);
    }
  }

  datatype Mode = EncryptMode | DecryptMode

  /** `cipherInstance.init(desKey, mode, IV)` then `doFinal` over `input`:
      `None` when the key slot was never set or the input is not a whole
      number of blocks (the cipher is `ALG_DES_CBC_NOPAD`); both throw a
      `CryptoException`. */
  function DoFinal(cr: Primitives, slot: Option<Bytes24>, mode: Mode, input: seq<byte>): (out: Option<seq<byte>>)
    ensures out.Some? <==> slot.Some? && |input| % 8 == 0
    ensures out.Some? ==> |out.value| == |input|
    ensures out.Some? && mode == EncryptMode ==> out.value == Encrypt(cr, slot.value, input)
    ensures out.Some? && mode == DecryptMode ==> out.value == Decrypt(cr, slot.value, input)
  {
    if slot.None? || |input| % 8 != 0 then None
    else if mode == EncryptMode then Some(Encrypt(cr, slot.value, input))
    else Some(Decrypt(cr, slot.value, input))
  }

  /** The 24-byte key built from the agreed secret `raw`: `generateSecret`
      writes `raw` over the start of the old key buffer, then the buffer's
      leading `24 - |raw|` bytes are copied to offset `|raw|` (an overlapping
      `Util.arrayCopyNonAtomic`, which copies as if through a temporary
      array). */
  function ExpandSecret(prior: Bytes24, raw: seq<byte>): (key: Bytes24)
    requires |raw| <= 24
    ensures key[..|raw|] == raw
  {
    var written := CopyInto(prior, raw);
    written[..|raw|] + written[..24 - |raw|]
  }

  /** For an agreed secret of 12 to 24 bytes the key is the secret followed
      by its own first `24 - |raw|` bytes, whatever the buffer held before. */
  lemma ExpandSecretRepeatsPrefix(prior: Bytes24, raw: seq<byte>)
    requires 12 <= |raw| <= 24
    ensures ExpandSecret(prior, raw) == raw + raw[..24 - |raw|]
  {
    var written := CopyInto(prior, raw);
    assert written[..|raw|] == raw;
    assert written[..24 - |raw|] == raw[..24 - |raw|];
  }

  /** The key that `generateSecretKey` installs: the agreement of `priv`
      with the received point expanded to 24 bytes, or `None` when the
      agreement throws or its output does not fit the 24-byte buffer. */
  function AgreeKey(cr: Primitives, priv: seq<byte>, prior: Bytes24, peer: seq<byte>): (key: Option<Bytes24>)
    ensures key.Some? <==> cr.ecdh(priv, peer).Some? && |cr.ecdh(priv, peer).value| <= 24
    ensures key.Some? ==> key.value[..|cr.ecdh(priv, peer).value|] == cr.ecdh(priv, peer).value
  {
    match cr.ecdh(priv, peer)
    case None => None
    case Some(raw) => if |raw| > 24 then None else Some(ExpandSecret(prior, raw))
  }
}

=== FILE: gp_cvm.dfy ===
/** An abstraction of the GlobalPlatform global PIN (`org.globalplatform.CVM`)
    as the pairing-key applet uses it: the PIN value, whether it was
    verified, whether it is blocked, and the try counter that decides when
    it becomes blocked. */
module GpCvm {
  import opened Bytes

  datatype Cvm = Cvm(pin: seq<byte>, verified: bool, blocked: bool, triesLeft: nat, tryLimit: nat)

  /** `cvm.update`: replaces the PIN value with any value it is given;
      nothing else changes. A platform's format or length checks on the
      new PIN are not modelled. */
  function Update(c: Cvm, pin: seq<byte>): (r: Cvm)
    ensures r.pin == pin
    ensures r.(pin := c.pin) == c
  {
    c.(pin := pin)
  }

  /** `cvm.resetState`: the PIN is no longer verified. */
  function ResetState(c: Cvm): (r: Cvm)
    ensures !r.verified
    ensures r.(verified := c.verified) == c
  {
    c.(verified := false)
  }

  /** `cvm.resetAndUnblockState`: not verified, not blocked, tries restored. */
  function ResetAndUnblockState(c: Cvm): (r: Cvm)
    ensures !r.verified && !r.blocked && r.triesLeft == c.tryLimit
    ensures r.pin == c.pin && r.tryLimit == c.tryLimit
  {
    c.(verified := false, blocked := false, triesLeft := c.tryLimit)
  }

  datatype Verdict = Verdict(cvm: Cvm, success: bool)

  /** `cvm.verify`: a blocked PIN refuses without comparing and is not
      validated (GlobalPlatform's BLOCKED and VALIDATED states exclude each
      other); a match marks the PIN verified and restores the tries; a
      mismatch costs one try and blocks the PIN when none are left. */
  function Verify(c: Cvm, candidate: seq<byte>): (v: Verdict)
    ensures v.success <==> !c.blocked && candidate == c.pin
    ensures v.success ==> v.cvm == c.(verified := true, triesLeft := c.tryLimit)
    ensures !v.success ==> !v.cvm.verified
    ensures c.blocked ==> v.cvm == c.(verified := false)
    ensures !c.blocked && !v.success ==> && !v.cvm.verified && v.cvm.pin == c.pin
                                         && (v.cvm.blocked <==> c.triesLeft <= 1)
  {
    if c.blocked then Verdict(c.(verified := false), false)
    else if candidate == c.pin then Verdict(c.(verified := true, triesLeft := c.tryLimit), true)
    else
      var left := if c.triesLeft > 0 then c.triesLeft - 1 else 0;
      Verdict(c.(verified := false, triesLeft := left, blocked := left == 0), false)
  }

  /** Installing a PIN and at once presenting it, as the applet's
      `updateCVMPin` does: the PIN is replaced and ends verified exactly
      when the CVM was not blocked. */
  function UpdateAndVerify(c: Cvm, pin: seq<byte>): (r: Cvm)
    ensures r.pin == pin
    ensures r.verified <==> !c.blocked
    ensures r.blocked == c.blocked
  {
    Verify(ResetState(Update(c, pin)), pin).cvm
  }
}

=== FILE: pin_keypair.dfy ===
/** The KeyFob applet of the ORWL_Keypair build: write-once identity fields,
    a GlobalPlatform PIN that gates the pairing key, and ECDH for the
    session key. One pure function per APDU handler. */
module PinKeypair {
  import opened Wrappers
  import opened Bytes
  import opened Apdu
  import opened Cipher
  import opened GpCvm

  const InsGetSerial: byte := 0x20
  const InsGetUid: byte := 0x21
  const InsGetName: byte := 0x22
  const InsStoreSerial: byte := 0x2A
  const InsStoreUid: byte := 0x2B
  const InsStoreName: byte := 0x2C
  const InsStorePin: byte := 0x2D
  const InsGetPublicKey: byte := 0x11
  const InsGenerateSecretKey: byte := 0x12
  const InsVerifyPin: byte := 0x13
  const InsAssociateStatus: byte := 0x14
  const InsStoreKey: byte := 0x15
  const InsReadKey: byte := 0x16

  const PinLength := 6
  const PairKeyLength := 128

  /** The three identity fields, each with its own buffer and flag. */
  datatype Field = Name | Serial | Uid

  function Capacity(f: Field): nat
  {
    match f
    case Name => 255
    case Serial => 16
    case Uid => 16
  }

  type NameBuffer = s: seq<byte> | |s| == 255 witness Zeros(255)
  type IdBuffer = s: seq<byte> | |s| == 16 witness Zeros(16)
  type PairKeyBuffer = s: seq<byte> | |s| == 128 witness Zeros(128)

  /** The applet's persistent fields. `pinSet` is `cvmAssociatedFlag`;
      `keyPair` is `None` until Get Public Key first generates one. */
  datatype State = State(
    nameSet: bool,
    serialSet: bool,
    uidSet: bool,
    pinSet: bool,
    associated: bool,
    name: NameBuffer,
    serial: IdBuffer,
    uid: IdBuffer,
    pairKey: PairKeyBuffer,
    cvm: Cvm,
    sharedSecret: Bytes24,
    desKey: Option<Bytes24>,
    keyPair: Option<EcKeyPair>)

  /** The applet as the constructor leaves it, over the card's global PIN. */
  function Install(cvm: Cvm): (s: State)
    ensures !s.nameSet && !s.serialSet && !s.uidSet && !s.pinSet && !s.associated
    ensures s.desKey.None? && s.keyPair.None? && s.cvm == cvm
  {
    State(false, false, false, false, false, Zeros(255), Zeros(16), Zeros(16), Zeros(128),
          cvm, Zeros(24), None, None)
  }

  function IsSet(s: State, f: Field): bool
  {
    match f
    case Name => s.nameSet
    case Serial => s.serialSet
    case Uid => s.uidSet
  }

  function FieldBytes(s: State, f: Field): (b: seq<byte>)
    ensures |b| == Capacity(f)
  {
    match f
    case Name => s.name
    case Serial => s.serial
    case Uid => s.uid
  }

  /** `s` with field `f` holding `b` and marked set. */
  function WithField(s: State, f: Field, b: seq<byte>): (t: State)
    requires |b| == Capacity(f)
    ensures FieldBytes(t, f) == b && IsSet(t, f)
    ensures forall g :: g != f ==> FieldBytes(t, g) == FieldBytes(s, g) && IsSet(t, g) == IsSet(s, g)
  {
    match f
    case Name => s.(name := b, nameSet := true)
    case Serial => s.(serial := b, serialSet := true)
    case Uid => s.(uid := b, uidSet := true)
  }

  /** Everything but the identity fields. */
  predicate SameApartFromIdentity(s: State, t: State)
  {
    t.(name := s.name, serial := s.serial, uid := s.uid,
       nameSet := s.nameSet, serialSet := s.serialSet, uidSet := s.uidSet) == s
  }

  /** INS 2C, 2A, 2B. The field is copied in plain from the command data;
      the length travels through a `(byte)` cast and must fit the buffer. */
  function StoreField(s: State, f: Field, c: Command): (r: Reply<State>)
    ensures r.data == []
    ensures r.sw != Ok ==> r.state == s
    ensures SameApartFromIdentity(s, r.state)
    ensures r.sw == Ok ==> && c.p1 == 0 && !IsSet(s, f) && |c.data| < 128 && |c.data| <= Capacity(f)
                           && r.state == WithField(s, f, CopyInto(FieldBytes(s, f), c.data))
  {
    if c.p1 != 0 then Refuse(s, IncorrectP1P2)
    else if IsSet(s, f) then Refuse(s, ConditionsNotSatisfied)
    else
      var n := SignedLength(c);
      if n < 0 || n > Capacity(f) then Refuse(s, Unknown)
      else Reply(WithField(s, f, CopyInto(FieldBytes(s, f), c.data)), Ok, [])
  }

  /** INS 22, 20, 21. The whole buffer of the field is answered. */
  function ReadField(s: State, f: Field, c: Command): (r: Reply<State>)
    ensures r.state == s
    ensures r.sw == Ok <==> c.p1 == 0 && c.data == [] && IsSet(s, f)
    ensures r.sw == Ok ==> r.data == FieldBytes(s, f) && |r.data| == Capacity(f)
    ensures r.sw != Ok ==> r.data == []
  {
    if c.p1 != 0 then Refuse(s, IncorrectP1P2)
    else if SignedLength(c) != 0 then Refuse(s, WrongLength)
    else if !IsSet(s, f) then Refuse(s, ConditionsNotSatisfied)
    else Reply(s, Ok, FieldBytes(s, f))
  }

  /** INS 2D. The first PIN arrives in plain (6 bytes) and is installed and
      verified. Later PINs arrive encrypted and need an unblocked, verified
      PIN; the handler first installs and verifies the raw ciphertext, then
      decrypts it and installs the first six plaintext bytes. A failure after
      the first install (a length that is not a whole number of blocks, an
      empty key slot, an empty payload) throws, and the CVM keeps the raw
      ciphertext as its PIN. A payload of 128 bytes or more reaches `update`
      and `verify` with a negative `(byte)` length; the CVM is taken to
      refuse both with no effect, so only the unblocking stays and the
      transient-array allocation then throws. */
  function ParseAndUpdateCvmPin(cr: Primitives, s: State, c: Command): (r: Reply<State>)
    ensures r.data == []
    ensures r.sw !in {Ok, Unknown} ==> r.state == s
    ensures r.state == s.(cvm := r.state.cvm, pinSet := r.state.pinSet)
    ensures r.sw == Ok ==> r.state.pinSet && c.p1 == PinLength as bv8
    ensures r.sw == Ok && !s.pinSet ==> |c.data| == PinLength && r.state.cvm == UpdateAndVerify(s.cvm, c.data)
    ensures r.sw == Ok && s.pinSet ==> && !s.cvm.blocked && s.cvm.verified && s.desKey.Some?
                                       && |c.data| % 8 == 0 && PinLength <= |c.data| < 128
                                       && r.state.cvm.verified
                                       && r.state.cvm.pin == Decrypt(cr, s.desKey.value, c.data)[..PinLength]
    ensures r.sw == Unknown ==> && s.pinSet && !s.cvm.blocked && s.cvm.verified
                                && !r.state.cvm.blocked && r.state.cvm.triesLeft == s.cvm.tryLimit
    ensures r.sw == Unknown && |c.data| < 128 ==> r.state.cvm.pin == c.data && r.state.cvm.verified
    ensures r.sw == Unknown && |c.data| >= 128 ==> r.state.cvm == ResetAndUnblockState(s.cvm)
  {
    var n := SignedLength(c);
    if c.p1 != PinLength as bv8 || (!s.pinSet && n != PinLength) then Refuse(s, WrongLength)
    else if !s.pinSet then Reply(s.(cvm := UpdateAndVerify(s.cvm, c.data), pinSet := true), Ok, [])
    else if s.cvm.blocked then Refuse(s, PinBlocked)
    else if !s.cvm.verified then Refuse(s, PinNotVerified)
    else
      var unblocked := ResetAndUnblockState(s.cvm);
      if n < 0 then Refuse(s.(cvm := unblocked), Unknown)
      else
        var raw := UpdateAndVerify(unblocked, c.data);
        match DoFinal(cr, s.desKey, DecryptMode, c.data)
        case None => Refuse(s.(cvm := raw), Unknown)
        case Some(plain) =>
          if |plain| < PinLength then Refuse(s.(cvm := raw), Unknown)
          else Reply(s.(cvm := UpdateAndVerify(raw, plain[..PinLength])), Ok, [])
  }

  /** INS 13. The PIN arrives encrypted under the key slot; its first six
      plaintext bytes are presented to the CVM, whose try counter moves
      even when the answer is 9840. */
  function VerifyCvm(cr: Primitives, s: State, c: Command): (r: Reply<State>)
    ensures r.data == []
    ensures r.state == s.(cvm := r.state.cvm)
    ensures r.sw !in {Ok, PinNotVerified} ==> r.state == s
    ensures r.sw == Ok <==> && c.p1 == PinLength as bv8 && s.pinSet && s.desKey.Some?
                            && |c.data| % 8 == 0 && PinLength <= |c.data| < 128
                            && Verify(s.cvm, Decrypt(cr, s.desKey.value, c.data)[..PinLength]).success
    ensures r.sw in {Ok, PinNotVerified} ==> && s.desKey.Some? && |c.data| % 8 == 0 && PinLength <= |c.data|
                                             && r.state.cvm == Verify(s.cvm, Decrypt(cr, s.desKey.value, c.data)[..PinLength]).cvm
  {
    var n := SignedLength(c);
    if c.p1 != PinLength as bv8 then Refuse(s, WrongLength)
    else if !s.pinSet then Refuse(s, PinNotSet)
    else if s.desKey.None? then Refuse(s, KeyNotReady)
    else if n < 0 then Refuse(s, Unknown)
    else match DoFinal(cr, s.desKey, DecryptMode, c.data)
      case None => Refuse(s, Unknown)
      case Some(plain) =>
        if |plain| < PinLength then Refuse(s, Unknown)
        else
          var v := Verify(s.cvm, plain[..PinLength]);
          Reply(s.(cvm := v.cvm), if v.success then Ok else PinNotVerified, [])
  }

  /** The PIN gate shared by the association status and the pairing key
      commands: blocked (9D61), no PIN stored (9802), not verified (9840). */
  function PinGate(s: State): (g: seq<Guard>)
    ensures FirstFailure(g).None? <==> !s.cvm.blocked && s.pinSet && s.cvm.verified
    ensures s.cvm.blocked ==> FirstFailure(g) == Some(PinBlocked)
    ensures !s.cvm.blocked && !s.pinSet ==> FirstFailure(g) == Some(PinNotSet)
    ensures !s.cvm.blocked && s.pinSet && !s.cvm.verified ==> FirstFailure(g) == Some(PinNotVerified)
  {
    var g := [Guard(s.cvm.blocked, PinBlocked), Guard(!s.pinSet, PinNotSet), Guard(!s.cvm.verified, PinNotVerified)];
    assert g[0].fails == s.cvm.blocked && g[1].fails == !s.pinSet && g[2].fails == !s.cvm.verified;
    assert g[1..][1..] == [g[2]];
    g
  }

  /** INS 14. 9000 means ready to pair, 6985 already paired. */
  function AssociateStatus(s: State, c: Command): (r: Reply<State>)
    ensures r.state == s && r.data == []
    ensures r.sw == Ok <==> c.p1 == 0 && c.data == [] && !s.cvm.blocked && s.pinSet && s.cvm.verified && !s.associated
  {
    if c.p1 != 0 then Refuse(s, IncorrectP1P2)
    else if SignedLength(c) != 0 then Refuse(s, WrongLength)
    else if s.cvm.blocked then Refuse(s, PinBlocked)
    else if !s.pinSet then Refuse(s, PinNotSet)
    else if !s.cvm.verified then Refuse(s, PinNotVerified)
    else if s.associated then Refuse(s, ConditionsNotSatisfied)
    else Reply(s, Ok, [])
  }

  /** INS 15. The pairing key arrives encrypted under the key slot and is
      decrypted into a zeroed 128-byte buffer; storing it associates. */
  function StorePairingKey(cr: Primitives, s: State, c: Command): (r: Reply<State>)
    ensures r.data == []
    ensures r.sw != Ok ==> r.state == s
    ensures r.sw == Ok <==> && c.p1 == PairKeyLength as bv8 && !s.cvm.blocked && s.pinSet && s.cvm.verified
                            && !s.associated && s.desKey.Some? && |c.data| % 8 == 0 && |c.data| <= PairKeyLength
    ensures r.sw == Ok ==> && s.desKey.Some? && |c.data| % 8 == 0 && |c.data| <= PairKeyLength
                           && r.state == s.(associated := true,
                                            pairKey := CopyInto(Zeros(PairKeyLength), Decrypt(cr, s.desKey.value, c.data)))
  {
    if c.p1 != PairKeyLength as bv8 then Refuse(s, WrongLength)
    else if s.cvm.blocked then Refuse(s, PinBlocked)
    else if !s.pinSet then Refuse(s, PinNotSet)
    else if !s.cvm.verified then Refuse(s, PinNotVerified)
    else if s.associated then Refuse(s, ConditionsNotSatisfied)
    else match DoFinal(cr, s.desKey, DecryptMode, c.data)
      case None => Refuse(s, Unknown)
      case Some(plain) =>
        if |plain| > PairKeyLength then Refuse(s, Unknown)
        else Reply(s.(pairKey := CopyInto(Zeros(PairKeyLength), plain), associated := true), Ok, [])
  }

  /** INS 16. The pairing key, encrypted under the key slot. */
  function GetPairedKey(cr: Primitives, s: State, c: Command): (r: Reply<State>)
    ensures r.state == s
    ensures r.sw == Ok <==> && c.p1 == 0 && c.data == [] && !s.cvm.blocked && s.pinSet && s.cvm.verified
                            && s.associated && s.desKey.Some?
    ensures r.sw == Ok ==> r.data == Encrypt(cr, s.desKey.value, s.pairKey)
    ensures r.sw != Ok ==> r.data == []
  {
    if c.p1 != 0 then Refuse(s, IncorrectP1P2)
    else if SignedLength(c) != 0 then Refuse(s, WrongLength)
    else if s.cvm.blocked then Refuse(s, PinBlocked)
    else if !s.pinSet then Refuse(s, PinNotSet)
    else if !s.cvm.verified then Refuse(s, PinNotVerified)
    else if !s.associated then Refuse(s, ConditionsNotSatisfied)
    else match DoFinal(cr, s.desKey, EncryptMode, s.pairKey)
      case None => Refuse(s, Unknown)
      case Some(sealed) => Reply(s, Ok, sealed)
  }

  /** INS 11. Every call generates a new key pair (`generated`, from the
      card's key generator) and answers its public point. */
  function GetPublicKey(s: State, generated: EcKeyPair): (r: Reply<State>)
    ensures r.sw == Ok && r.data == generated.pub
    ensures r.state == s.(keyPair := Some(generated))
  {
    Reply(s.(keyPair := Some(generated)), Ok, generated.pub)
  }

  /** INS 12. As in the ORWL build but without an association check; with
      no key pair generated yet the agreement throws. */
  function GenerateSecretKey(cr: Primitives, s: State, c: Command): (r: Reply<State>)
    ensures r.data == []
    ensures r.sw != Ok ==> r.state == s
    ensures r.sw == Ok <==> && |c.data| < 128 && s.keyPair.Some?
                            && AgreeKey(cr, s.keyPair.value.priv, s.sharedSecret, c.data).Some?
    ensures r.sw == Ok ==> && s.keyPair.Some? && AgreeKey(cr, s.keyPair.value.priv, s.sharedSecret, c.data).Some?
                           && var k := AgreeKey(cr, s.keyPair.value.priv, s.sharedSecret, c.data).value;
                              r.state == s.(sharedSecret := k, desKey := Some(k))
  {
    if SignedLength(c) < 0 then Refuse(s, Unknown)
    else if s.keyPair.None? then Refuse(s, Unknown)
    else match AgreeKey(cr, s.keyPair.value.priv, s.sharedSecret, c.data)
      case None => Refuse(s, Unknown)
      case Some(k) => Reply(s.(sharedSecret := k, desKey := Some(k)), Ok, [])
  }

  /** `process`: SELECT succeeds with nothing to do; other commands need
      class 0x90 and P2 = 0 and are dispatched on INS. */
  function Process(cr: Primitives, s: State, m: Incoming, generated: EcKeyPair): (r: Reply<State>)
    ensures m.Cmd? && m.cmd.cla != Cla ==> r == Refuse(s, ClaNotSupported)
    ensures m.Cmd? && m.cmd.cla == Cla && m.cmd.p2 != 0 ==> r == Refuse(s, IncorrectP1P2)
    ensures m.Select? ==> r == Reply(s, Ok, [])
  {
    match m
    case Select => Reply(s, Ok, [])
    case Cmd(c) =>
      match Screen(c)
      case Some(w) => Refuse(s, w)
      case None => Dispatch(cr, s, c, generated)
  }

  function Dispatch(cr: Primitives, s: State, c: Command, generated: EcKeyPair): (r: Reply<State>)
    ensures c.ins !in Instructions() ==> r == Refuse(s, InsNotSupported)
  {
    if c.ins == InsStoreName then StoreField(s, Name, c)
    else if c.ins == InsGetName then ReadField(s, Name, c)
    else if c.ins == InsStoreSerial then StoreField(s, Serial, c)
    else if c.ins == InsGetSerial then ReadField(s, Serial, c)
    else if c.ins == InsStoreUid then StoreField(s, Uid, c)
    else if c.ins == InsGetUid then ReadField(s, Uid, c)
    else if c.ins == InsStorePin then ParseAndUpdateCvmPin(cr, s, c)
    else if c.ins == InsVerifyPin then VerifyCvm(cr, s, c)
    else if c.ins == InsAssociateStatus then AssociateStatus(s, c)
    else if c.ins == InsStoreKey then StorePairingKey(cr, s, c)
    else if c.ins == InsReadKey then GetPairedKey(cr, s, c)
    else if c.ins == InsGetPublicKey then GetPublicKey(s, generated)
    else if c.ins == InsGenerateSecretKey then GenerateSecretKey(cr, s, c)
    else Refuse(s, InsNotSupported)
  }

  /** The instruction bytes this build dispatches. */
  function Instructions(): set<byte>
  {
    {InsStoreName, InsGetName, InsStoreSerial, InsGetSerial, InsStoreUid, InsGetUid, InsStorePin,
     InsVerifyPin, InsAssociateStatus, InsStoreKey, InsReadKey, InsGetPublicKey, InsGenerateSecretKey}
  }
}

=== FILE: pin_keypair_proofs.dfy ===
/** Properties of the ORWL_Keypair-build KeyFob applet: identity fields,
    the PIN gate and its precedence, the pairing key round trip, and the
    routing of `process`. */
module PinKeypairProofs {
  import opened Wrappers
  import opened Bytes
  import opened Apdu
  import opened Cipher
  import opened GpCvm
  import opened PinKeypair

  /** Whenever the key slot is set it holds the stored session key. */
  ghost predicate Consistent(s: State)
  {
    s.desKey.None? || s.desKey == Some(s.sharedSecret)
  }

  lemma ProcessKeepsConsistent(cr: Primitives, s: State, m: Incoming, generated: EcKeyPair)
    requires Consistent(s)
    ensures Consistent(Process(cr, s, m, generated).state)
  {
  }

  /** A set identity field never changes again, whatever the command. */
  lemma IdentityWriteOnce(cr: Primitives, s: State, m: Incoming, generated: EcKeyPair, f: Field)
    requires IsSet(s, f)
    ensures IsSet(Process(cr, s, m, generated).state, f)
    ensures FieldBytes(Process(cr, s, m, generated).state, f) == FieldBytes(s, f)
  {
    match m
    case Select =>
    case Cmd(c) =>
      if c.cla == Cla && c.p2 == 0 {
        DispatchKeepsIdentity(cr, s, c, generated, f);
      }
  }

  lemma DispatchKeepsIdentity(cr: Primitives, s: State, c: Command, generated: EcKeyPair, f: Field)
    requires IsSet(s, f)
    ensures IsSet(Dispatch(cr, s, c, generated).state, f)
    ensures FieldBytes(Dispatch(cr, s, c, generated).state, f) == FieldBytes(s, f)
  {
    if c.ins in {InsStoreName, InsStoreSerial, InsStoreUid} {
      var g := if c.ins == InsStoreName then Name else if c.ins == InsStoreSerial then Serial else Uid;
      assert Dispatch(cr, s, c, generated) == StoreField(s, g, c);
    }
  }

  /** A second store of a set field is refused with 6985. */
  lemma StoreTwiceRefused(s: State, f: Field, c: Command)
    requires IsSet(s, f) && c.p1 == 0
    ensures StoreField(s, f, c) == Refuse(s, ConditionsNotSatisfied)
  {
  }

  /** What a store of one field does depends on nothing stored in the
      others. */
  lemma FieldsIndependent(s: State, f: Field, g: Field, c: Command)
    requires f != g
    ensures forall b :: |b| == Capacity(g) ==>
              && StoreField(WithField(s, g, b), f, c).sw == StoreField(s, f, c).sw
              && FieldBytes(StoreField(WithField(s, g, b), f, c).state, f) == FieldBytes(StoreField(s, f, c).state, f)
  {
    forall b | |b| == Capacity(g)
      ensures StoreField(WithField(s, g, b), f, c).sw == StoreField(s, f, c).sw
      ensures FieldBytes(StoreField(WithField(s, g, b), f, c).state, f) == FieldBytes(StoreField(s, f, c).state, f)
    {
      StoreFieldReadsOnlyItsField(s, WithField(s, g, b), f, c);
    }
  }

  /** Store writes nothing but the target field and its flag. */
  lemma StoreFieldKeepsOthers(s: State, f: Field, g: Field, c: Command)
    requires f != g
    ensures FieldBytes(StoreField(s, f, c).state, g) == FieldBytes(s, g)
    ensures IsSet(StoreField(s, f, c).state, g) == IsSet(s, g)
  {
  }

  /** Store reads nothing but the target field and its flag. */
  lemma StoreFieldReadsOnlyItsField(s: State, t: State, f: Field, c: Command)
    requires IsSet(t, f) == IsSet(s, f) && FieldBytes(t, f) == FieldBytes(s, f)
    ensures StoreField(t, f, c).sw == StoreField(s, f, c).sw
    ensures FieldBytes(StoreField(t, f, c).state, f) == FieldBytes(StoreField(s, f, c).state, f)
  {
  }

  /** A field stored with `x` reads back as the full buffer beginning
      with `x`; a 16-byte serial or UID reads back exactly. */
  lemma IdentityRoundTrip(s: State, f: Field, store: Command, read: Command)
    requires !IsSet(s, f) && store.p1 == 0 && |store.data| < 128 && |store.data| <= Capacity(f)
    requires read.p1 == 0 && read.data == []
    ensures StoreField(s, f, store).sw == Ok
    ensures var r := ReadField(StoreField(s, f, store).state, f, read);
            && r.sw == Ok && |r.data| == Capacity(f) && r.data[..|store.data|] == store.data
            && (|store.data| == Capacity(f) ==> r.data == store.data)
  {
  }

  /** The length of a stored field passes through a `(byte)` cast, so a
      name of 128 bytes or more makes the copy throw and nothing is stored. */
  lemma LongNameRefused(s: State, c: Command)
    requires !s.nameSet && c.p1 == 0 && |c.data| >= 128
    ensures StoreField(s, Name, c) == Refuse(s, Unknown)
  {
  }

  /** Association status checks, in order: P1 (6A86), length (6700),
      blocked (9D61), no PIN (9802), not verified (9840), associated (6985);
      when none fails the applet is ready to pair. */
  lemma AssociateStatusGuardOrder(s: State, c: Command)
    ensures var g := FirstFailure([Guard(c.p1 != 0, IncorrectP1P2), Guard(c.data != [], WrongLength)]
                                  + PinGate(s) + [Guard(s.associated, ConditionsNotSatisfied)]);
            && (g.Some? ==> AssociateStatus(s, c) == Refuse(s, g.value))
            && (g.None? ==> AssociateStatus(s, c) == Reply(s, Ok, []))
  {
    var front := [Guard(c.p1 != 0, IncorrectP1P2), Guard(c.data != [], WrongLength)];
    var back := [Guard(s.associated, ConditionsNotSatisfied)];
    assert front + PinGate(s) + back == front + (PinGate(s) + back);
    FirstFailureAppend(front, PinGate(s) + back);
    FirstFailureAppend(PinGate(s), back);
  }

  /** The pairing-key gates, evaluated in order. */
  lemma PairingGates(s: State, p1: byte)
    ensures FirstFailure([Guard(p1 != 128, WrongLength)] + PinGate(s) + [Guard(s.associated, ConditionsNotSatisfied)])
         == if p1 != 128 then Some(WrongLength)
            else if s.cvm.blocked then Some(PinBlocked)
            else if !s.pinSet then Some(PinNotSet)
            else if !s.cvm.verified then Some(PinNotVerified)
            else if s.associated then Some(ConditionsNotSatisfied)
            else None
  {
    var front := [Guard(p1 != 128, WrongLength)];
    var back := [Guard(s.associated, ConditionsNotSatisfied)];
    var pg := PinGate(s);
    assert front + pg + back == front + (pg + back);
    FirstFailureAppend(front, pg + back);
    FirstFailureAppend(pg, back);
  }

  /** Store Pairing Key checks P1 = 128 (6700) and then the PIN gate,
      then that no key is stored yet (6985). */
  lemma StorePairingKeyGuardOrder(cr: Primitives, s: State, c: Command)
    ensures var g := FirstFailure([Guard(c.p1 != 128, WrongLength)] + PinGate(s)
                                  + [Guard(s.associated, ConditionsNotSatisfied)]);
            g.Some? ==> StorePairingKey(cr, s, c) == Refuse(s, g.value)
  {
    PairingGates(s, c.p1);
  }

  /** A 128-byte pairing key sent encrypted under the key slot is stored
      as sent, associates the token, and a repeat is refused. */
  lemma StorePairingKeyRoundTrip(cr: Primitives, s: State, c: Command, key: PairKeyBuffer)
    requires Sound(cr)
    requires s.desKey.Some? && !s.cvm.blocked && s.pinSet && s.cvm.verified && !s.associated
    requires c.p1 == 128 && c.data == Encrypt(cr, s.desKey.value, key)
    ensures var r := StorePairingKey(cr, s, c);
            && r.sw == Ok && r.state.pairKey == key && r.state.associated
            && StorePairingKey(cr, r.state, c) == Refuse(r.state, ConditionsNotSatisfied)
  {
    RoundTrip(cr, s.desKey.value, key);
  }

  /** With the key slot unchanged, decrypting the Read Key answer gives
      back the stored pairing key. */
  lemma PairedKeyRoundTrip(cr: Primitives, s: State, c: Command)
    requires Sound(cr)
    requires GetPairedKey(cr, s, c).sw == Ok
    ensures Decrypt(cr, s.desKey.value, GetPairedKey(cr, s, c).data) == s.pairKey
  {
    RoundTrip(cr, s.desKey.value, s.pairKey);
  }

  /** Stored and then read under the same key, the pairing key comes back. */
  lemma PairingKeyEndToEnd(cr: Primitives, s: State, store: Command, read: Command, key: PairKeyBuffer)
    requires Sound(cr)
    requires s.desKey.Some? && !s.cvm.blocked && s.pinSet && s.cvm.verified && !s.associated
    requires store.p1 == 128 && store.data == Encrypt(cr, s.desKey.value, key)
    requires read.p1 == 0 && read.data == []
    ensures var t := StorePairingKey(cr, s, store).state;
            var r := GetPairedKey(cr, t, read);
            r.sw == Ok && Decrypt(cr, s.desKey.value, r.data) == key
  {
    StorePairingKeyRoundTrip(cr, s, store, key);
    PairedKeyRoundTrip(cr, StorePairingKey(cr, s, store).state, read);
  }

  /** The association flag is never cleared, and the pairing key never
      changes after association. */
  lemma AssociationIsTerminal(cr: Primitives, s: State, m: Incoming, generated: EcKeyPair)
    requires s.associated
    ensures Process(cr, s, m, generated).state.associated
    ensures Process(cr, s, m, generated).state.pairKey == s.pairKey
  {
  }

  /** Only Store Pairing Key associates. */
  lemma OnlyStorePairingKeyAssociates(cr: Primitives, s: State, m: Incoming, generated: EcKeyPair)
    requires !s.associated && Process(cr, s, m, generated).state.associated
    ensures m.Cmd? && m.cmd.ins == InsStoreKey && m.cmd.p1 == 128
    ensures s.pinSet && s.cvm.verified && !s.cvm.blocked
  {
  }

  /** The first PIN: P1 and the received length must both be 6; the plain
      PIN is installed, verified unless the CVM is blocked, and recorded. */
  lemma FirstPinStore(cr: Primitives, s: State, c: Command)
    requires !s.pinSet
    ensures var r := ParseAndUpdateCvmPin(cr, s, c);
            && (c.p1 != 6 || |c.data| != 6 ==> r == Refuse(s, WrongLength))
            && (c.p1 == 6 && |c.data| == 6 ==>
                  r.sw == Ok && r.state.pinSet && r.state.cvm.pin == c.data
                  && (r.state.cvm.verified <==> !s.cvm.blocked))
  {
  }

  /** Later PIN stores check P1 = 6 (6700), then blocked (9D61), then
      verified (9840), before anything changes. */
  lemma LaterPinStoreGuards(cr: Primitives, s: State, c: Command)
    requires s.pinSet
    ensures var g := FirstFailure([Guard(c.p1 != 6, WrongLength), Guard(s.cvm.blocked, PinBlocked),
                                   Guard(!s.cvm.verified, PinNotVerified)]);
            g.Some? ==> ParseAndUpdateCvmPin(cr, s, c) == Refuse(s, g.value)
  {
  }

  /** A new PIN sent as the encryption of one block whose first six bytes
      are the PIN replaces the PIN and leaves it verified. */
  lemma PinChange(cr: Primitives, s: State, c: Command, block: Block)
    requires Sound(cr)
    requires s.pinSet && !s.cvm.blocked && s.cvm.verified && s.desKey.Some?
    requires c.p1 == 6 && c.data == Encrypt(cr, s.desKey.value, block)
    ensures var r := ParseAndUpdateCvmPin(cr, s, c);
            r.sw == Ok && r.state.cvm.pin == block[..6] && r.state.cvm.verified && !r.state.cvm.blocked
  {
    RoundTrip(cr, s.desKey.value, block);
  }

  /** A PIN change whose data is not a whole number of blocks is answered
      with 6F00, yet the CVM already holds the raw data as its PIN. This
      rests on `GpCvm.Update` accepting any value: the handler ignores what
      `update` and `verify` report. */
  lemma PinChangeFailureKeepsRawPin(cr: Primitives, s: State, c: Command)
    requires s.pinSet && !s.cvm.blocked && s.cvm.verified
    requires c.p1 == 6 && |c.data| < 128 && |c.data| % 8 != 0
    ensures var r := ParseAndUpdateCvmPin(cr, s, c);
            r.sw == Unknown && r.state.cvm.pin == c.data && r.state.cvm.verified
  {
  }

  /** Verify PIN checks P1 = 6 (6700), a stored PIN (9802) and an
      initialised key slot (6669), in that order, before anything changes. */
  lemma VerifyCvmGuardOrder(cr: Primitives, s: State, c: Command)
    ensures var g := FirstFailure([Guard(c.p1 != 6, WrongLength), Guard(!s.pinSet, PinNotSet),
                                   Guard(s.desKey.None?, KeyNotReady)]);
            g.Some? ==> VerifyCvm(cr, s, c) == Refuse(s, g.value)
  {
  }

  /** Presenting the encryption of a block that starts with the stored PIN
      verifies it (unless blocked); any other first six bytes give 9840. */
  lemma VerifyCvmMatch(cr: Primitives, s: State, c: Command, block: Block)
    requires Sound(cr)
    requires s.pinSet && s.desKey.Some? && c.p1 == 6
    requires c.data == Encrypt(cr, s.desKey.value, block)
    ensures var r := VerifyCvm(cr, s, c);
            && (r.sw == Ok <==> !s.cvm.blocked && block[..6] == s.cvm.pin)
            && (r.sw != Ok ==> r.sw == PinNotVerified)
            && (r.sw == Ok ==> r.state.cvm.verified)
  {
    RoundTrip(cr, s.desKey.value, block);
  }

  /** Routing: a wrong class is 6E00, a non-zero P2 is 6A86, and an
      instruction outside the table is 6D00, with nothing changed. */
  lemma ProcessRouting(cr: Primitives, s: State, c: Command, generated: EcKeyPair)
    ensures c.cla != Cla ==> Process(cr, s, Cmd(c), generated) == Refuse(s, ClaNotSupported)
    ensures c.cla == Cla && c.p2 != 0 ==> Process(cr, s, Cmd(c), generated) == Refuse(s, IncorrectP1P2)
    ensures c.cla == Cla && c.p2 == 0 && c.ins !in Instructions() ==>
              Process(cr, s, Cmd(c), generated) == Refuse(s, InsNotSupported)
  {
  }

  /** Generate Secret Key does not look at the association flag: an
      associated token derives the same key as an unassociated one. */
  lemma GenerateSecretKeyIgnoresAssociation(cr: Primitives, s: State, c: Command)
    ensures GenerateSecretKey(cr, s, c).sw == GenerateSecretKey(cr, s.(associated := !s.associated), c).sw
    ensures GenerateSecretKey(cr, s, c).state.desKey == GenerateSecretKey(cr, s.(associated := !s.associated), c).state.desKey
  {
  }

  /** The key setup of this build: from any state, associated or not, Get
      Public Key followed by Generate Secret Key with a peer whose
      agreement yields 12 to 24 bytes answers 9000 and keys both the stored
      session key and the slot with the secret followed by its own leading
      bytes. */
  lemma KeySetup(cr: Primitives, s: State, kp: EcKeyPair, c: Command)
    requires |c.data| < 128
    requires cr.ecdh(kp.priv, c.data).Some? && 12 <= |cr.ecdh(kp.priv, c.data).value| <= 24
    ensures var p := GetPublicKey(s, kp);
            var g := GenerateSecretKey(cr, p.state, c);
            var raw := cr.ecdh(kp.priv, c.data).value;
            && p.sw == Ok && p.data == kp.pub
            && g.sw == Ok && g.state.sharedSecret == raw + raw[..24 - |raw|]
            && g.state.desKey == Some(raw + raw[..24 - |raw|])
  {
    ExpandSecretRepeatsPrefix(s.sharedSecret, cr.ecdh(kp.priv, c.data).value);
  }

  /** One command with the key pair the card would generate for it. */
  datatype Step = Step(m: Incoming, generated: EcKeyPair)

  function Run(cr: Primitives, s: State, steps: seq<Step>): (t: State)
    ensures s.associated ==> t.associated && t.pairKey == s.pairKey
    decreases |steps|
  {
    if |steps| == 0 then s
    else
      var first := Process(cr, s, steps[0].m, steps[0].generated).state;
      assert s.associated ==> first.associated && first.pairKey == s.pairKey by {
        if s.associated { AssociationIsTerminal(cr, s, steps[0].m, steps[0].generated); }
      }
      Run(cr, first, steps[1..])
  }

  /** Identity fields stay write-once over any sequence of commands. */
  lemma {:induction false} RunKeepsIdentity(cr: Primitives, s: State, steps: seq<Step>, f: Field)
    requires IsSet(s, f)
    ensures IsSet(Run(cr, s, steps), f) && FieldBytes(Run(cr, s, steps), f) == FieldBytes(s, f)
    decreases |steps|
  {
    if |steps| != 0 {
      IdentityWriteOnce(cr, s, steps[0].m, steps[0].generated, f);
      RunKeepsIdentity(cr, Process(cr, s, steps[0].m, steps[0].generated).state, steps[1..], f);
    }
  }

  /** The dispatch table of `process`: each instruction byte reaches its
      handler once the class and P2 are accepted. */
  lemma Routes(cr: Primitives, s: State, c: Command, generated: EcKeyPair)
    requires c.cla == Cla && c.p2 == 0
    ensures var r := Process(cr, s, Cmd(c), generated);
            && (c.ins == 0x2C ==> r == StoreField(s, Name, c))
            && (c.ins == 0x22 ==> r == ReadField(s, Name, c))
            && (c.ins == 0x2A ==> r == StoreField(s, Serial, c))
            && (c.ins == 0x20 ==> r == ReadField(s, Serial, c))
            && (c.ins == 0x2B ==> r == StoreField(s, Uid, c))
            && (c.ins == 0x21 ==> r == ReadField(s, Uid, c))
            && (c.ins == 0x2D ==> r == ParseAndUpdateCvmPin(cr, s, c))
            && (c.ins == 0x13 ==> r == VerifyCvm(cr, s, c))
            && (c.ins == 0x14 ==> r == AssociateStatus(s, c))
            && (c.ins == 0x15 ==> r == StorePairingKey(cr, s, c))
            && (c.ins == 0x16 ==> r == GetPairedKey(cr, s, c))
            && (c.ins == 0x11 ==> r == GetPublicKey(s, generated))
            && (c.ins == 0x12 ==> r == GenerateSecretKey(cr, s, c))
  {
  }
}

=== FILE: seed_keypair.dfy ===
/** The KeyFob applet of the ORWL build (ECDH session key, seedX/seedY
    exchange, BLE seed storage and challenge answer). One pure function per
    APDU handler maps the persistent state and the command to a `Reply`. */
module SeedKeypair {
  import opened Wrappers
  import opened Bytes
  import opened Apdu
  import opened Cipher

  const InsGetSerial: byte := 0x20
  const InsGetName: byte := 0x22
  const InsStoreSerial: byte := 0x2A
  const InsStoreName: byte := 0x2C
  const InsGetPublicKey: byte := 0x11
  const InsGenerateSecretKey: byte := 0x12
  const InsConfirmSecretKey: byte := 0x10
  const InsAssociateStatus: byte := 0x14
  const InsSaveSeed: byte := 0x15
  const InsAuthenticateSeed: byte := 0x16
  const InsSaveSecretKeys: byte := 0x17
  const InsSaveSeedX: byte := 0x18
  const InsGetSeedY: byte := 0x19

  const NameLength := 19
  const SerialLength := 4
  const SeedLength := 40
  const ChallengeLength := 32
  const SharedSeedLength := 24
  /** Length of the padded digest answered by the seed authentication. */
  const DigestBlockLength := 24

  /** "ORWLKEYF", the plaintext the host encrypts to confirm the session key. */
  const SampleData: seq<byte> := [0x4f, 0x52, 0x57, 0x4c, 0x4b, 0x45, 0x59, 0x46]

  type NameBuffer = s: seq<byte> | |s| == 19 witness Zeros(19)
  type SerialBuffer = s: seq<byte> | |s| == 4 witness Zeros(4)
  type SeedBuffer = s: seq<byte> | |s| == 40 witness Zeros(40)

  /** The applet's persistent fields. `desKey` is the one 3DES key slot
      (`None` until a key is first set); `sharedSecret` is the buffer the
      ECDH key is kept in; `keyPair` is generated once, at install time. */
  datatype State = State(
    nameSet: bool,
    serialSet: bool,
    associated: bool,
    seedXSaved: bool,
    name: NameBuffer,
    serial: SerialBuffer,
    bleSeed: SeedBuffer,
    seedX: Bytes24,
    seedY: Bytes24,
    sharedSecret: Bytes24,
    desKey: Option<Bytes24>,
    keyPair: EcKeyPair)

  /** The applet as the constructor leaves it: zeroed buffers, no flag set,
      an uninitialised key slot and a freshly generated key pair. */
  function Install(kp: EcKeyPair): (s: State)
    ensures !s.nameSet && !s.serialSet && !s.associated && !s.seedXSaved
    ensures s.desKey.None? && s.keyPair == kp
  {
    State(false, false, false, false, Zeros(19), Zeros(4), Zeros(40),
          Zeros(24), Zeros(24), Zeros(24), None, kp)
  }

  /** INS 2C. The name is sent encrypted; it is decrypted in place in the
      APDU buffer and the buffer's first 19 bytes are kept. */
  function StoreKeyFobName(cr: Primitives, s: State, c: Command): (r: Reply<State>)
    ensures r.data == []
    ensures r.sw != Ok ==> r.state == s
    ensures r.sw == Ok ==> && c.p1 == 19 && !s.associated && !s.nameSet && s.desKey.Some?
                           && |c.data| < 128 && |c.data| % 8 == 0
                           && r.state == s.(nameSet := true, name := r.state.name)
    ensures r.sw == Ok ==>
              var buffer := CopyInto(Buffer(c), Decrypt(cr, s.desKey.value, c.data));
              NameLength <= |buffer| && r.state.name == buffer[..NameLength]
    ensures r.sw == Ok && |c.data| >= NameLength ==>
              r.state.name == Decrypt(cr, s.desKey.value, c.data)[..NameLength]
  {
    if c.p1 != 19 then Refuse(s, WrongLength)
    else if s.associated then Refuse(s, KeyNotReady)
    else if s.nameSet then Refuse(s, ConditionsNotSatisfied)
    else if SignedLength(c) < 0 then Refuse(s, Unknown)
    else match DoFinal(cr, s.desKey, DecryptMode, c.data)
      case None => Refuse(s, Unknown)
      case Some(plain) =>
        var buffer := CopyInto(Buffer(c), plain);
        if |buffer| < NameLength then Refuse(s, Unknown)
        else Reply(s.(name := buffer[..NameLength], nameSet := true), Ok, [])
  }

  /** INS 22. */
  function GetKeyFobName(s: State, c: Command): (r: Reply<State>)
    ensures r.state == s
    ensures r.sw == Ok <==> c.p1 == 0 && c.data == [] && s.associated && s.nameSet
    ensures r.sw == Ok ==> r.data == s.name
    ensures r.sw != Ok ==> r.data == []
  {
    if c.p1 != 0 then Refuse(s, IncorrectP1P2)
    else if SignedLength(c) != 0 then Refuse(s, WrongLength)
    else if !s.associated then Refuse(s, KeyNotReady)
    else if !s.nameSet then Refuse(s, ConditionsNotSatisfied)
    else Reply(s, Ok, s.name)
  }

  /** INS 2A. The serial number is copied as received, in plain. */
  function StoreKeyFobSerial(s: State, c: Command): (r: Reply<State>)
    ensures r.data == []
    ensures r.sw != Ok ==> r.state == s
    ensures r.sw == Ok <==> c.p1 == 0 && !s.serialSet && |c.data| <= SerialLength
    ensures r.sw == Ok ==> r.state == s.(serialSet := true, serial := CopyInto(s.serial, c.data))
  {
    if c.p1 != 0 then Refuse(s, IncorrectP1P2)
    else if s.serialSet then Refuse(s, ConditionsNotSatisfied)
    else
      var n := SignedLength(c);
      if n < 0 || n > SerialLength then Refuse(s, Unknown)
      else Reply(s.(serial := CopyInto(s.serial, c.data), serialSet := true), Ok, [])
  }

  /** INS 20. */
  function GetKeyFobSerial(s: State, c: Command): (r: Reply<State>)
    ensures r.state == s
    ensures r.sw == Ok <==> c.p1 == 0 && c.data == [] && s.serialSet
    ensures r.sw == Ok ==> r.data == s.serial
    ensures r.sw != Ok ==> r.data == []
  {
    if c.p1 != 0 then Refuse(s, IncorrectP1P2)
    else if SignedLength(c) != 0 then Refuse(s, WrongLength)
    else if !s.serialSet then Refuse(s, ConditionsNotSatisfied)
    else Reply(s, Ok, s.serial)
  }

  /** INS 14. 9000 means ready to pair, 6985 already paired. */
  function AssociateStatus(s: State, c: Command): (r: Reply<State>)
    ensures r.state == s && r.data == []
    ensures r.sw == Ok <==> c.p1 == 0 && c.data == [] && !s.associated
    ensures c.p1 == 0 && c.data == [] && s.associated ==> r.sw == ConditionsNotSatisfied
  {
    if c.p1 != 0 then Refuse(s, IncorrectP1P2)
    else if SignedLength(c) != 0 then Refuse(s, WrongLength)
    else if s.associated then Refuse(s, ConditionsNotSatisfied)
    else Reply(s, Ok, [])
  }

  /** INS 15. The 40-byte BLE seed arrives encrypted under the session key
      and then under seedX; the key slot is set to seedX for the inner layer
      and afterwards to the session key. */
  function SeedSave(cr: Primitives, s: State, c: Command): (r: Reply<State>)
    ensures r.data == []
    ensures r.sw != Ok ==> r.state == s
    ensures r.sw == Ok ==> && |c.data| == SeedLength && s.associated && s.desKey.Some?
                           && r.state == s.(bleSeed := r.state.bleSeed, desKey := Some(s.sharedSecret))
                           && r.state.bleSeed == Decrypt(cr, s.seedX, Decrypt(cr, s.desKey.value, c.data))
  {
    if |c.data| != SeedLength then Refuse(s, WrongLength)
    else if !s.associated then Refuse(s, ConditionsNotSatisfied)
    else match DoFinal(cr, s.desKey, DecryptMode, c.data)
      case None => Refuse(s, Unknown)
      case Some(outer) =>
        Reply(s.(bleSeed := Decrypt(cr, s.seedX, outer), desKey := Some(s.sharedSecret)), Ok, [])
  }

  /** The 24-byte block the seed authentication encrypts: the SHA-1 digest
      of the challenge window, completed with its own first four bytes. */
  function ChallengeBlock(cr: Primitives, bleSeed: SeedBuffer): (b: seq<byte>)
    ensures |b| == DigestBlockLength
    ensures b[..20] == cr.sha1(bleSeed[..ChallengeLength])
    ensures b[20..] == b[..4]
  {
    var d := cr.sha1(bleSeed[..ChallengeLength]);
    d + d[..DigestBlockLength - 20]
  }

  /** INS 16. Answers the challenge block encrypted under seedY and then
      under the session key; the key slot ends holding the session key. */
  function SeedAuthenticate(cr: Primitives, s: State, c: Command): (r: Reply<State>)
    ensures r.sw != Ok ==> r.state == s && r.data == []
    ensures r.sw == Ok <==> c.p1 == 0 && c.data == [] && s.associated
    ensures r.sw == Ok ==> && r.state == s.(desKey := Some(s.sharedSecret))
                           && r.data == Encrypt(cr, s.sharedSecret, Encrypt(cr, s.seedY, ChallengeBlock(cr, s.bleSeed)))
  {
    if c.p1 != 0 then Refuse(s, IncorrectP1P2)
    else if SignedLength(c) != 0 then Refuse(s, WrongLength)
    else if !s.associated then Refuse(s, ConditionsNotSatisfied)
    else
      var inner := Encrypt(cr, s.seedY, ChallengeBlock(cr, s.bleSeed));
      Reply(s.(desKey := Some(s.sharedSecret)), Ok, Encrypt(cr, s.sharedSecret, inner))
  }

  /** INS 11. The public point of the install-time key pair. */
  function GetPublicKey(s: State): (r: Reply<State>)
    ensures r.state == s
    ensures r.sw == Ok <==> !s.associated
    ensures r.sw == Ok ==> r.data == s.keyPair.pub
    ensures r.sw != Ok ==> r.data == []
  {
    if s.associated then Refuse(s, ConditionsNotSatisfied)
    else Reply(s, Ok, s.keyPair.pub)
  }

  /** INS 12. The received point is agreed with the install-time private
      key; the expanded secret becomes both the stored session key and the
      content of the key slot. */
  function GenerateSecretKey(cr: Primitives, s: State, c: Command): (r: Reply<State>)
    ensures r.data == []
    ensures r.sw != Ok ==> r.state == s
    ensures r.sw == Ok ==> && !s.associated && |c.data| < 128
                           && AgreeKey(cr, s.keyPair.priv, s.sharedSecret, c.data).Some?
                           && var k := AgreeKey(cr, s.keyPair.priv, s.sharedSecret, c.data).value;
                              r.state == s.(sharedSecret := k, desKey := Some(k))
  {
    if s.associated then Refuse(s, ConditionsNotSatisfied)
    else if SignedLength(c) < 0 then Refuse(s, Unknown)
    else match AgreeKey(cr, s.keyPair.priv, s.sharedSecret, c.data)
      case None => Refuse(s, Unknown)
      case Some(k) => Reply(s.(sharedSecret := k, desKey := Some(k)), Ok, [])
  }

  /** INS 10. Checks that the host's encryption of the sample decrypts
      correctly under the key slot. Changes nothing, whatever the result. */
  function ConfirmSecretKey(cr: Primitives, s: State, c: Command): (r: Reply<State>)
    ensures r.state == s && r.data == []
    ensures r.sw == Ok <==> && |c.data| == |SampleData| && !s.associated && s.desKey.Some?
                            && Decrypt(cr, s.desKey.value, c.data) == SampleData
  {
    if |c.data| != |SampleData| then Refuse(s, WrongLength)
    else if s.associated then Refuse(s, ConditionsNotSatisfied)
    else if s.desKey.None? then Refuse(s, KeyNotReady)
    else if Decrypt(cr, s.desKey.value, c.data) != SampleData then Refuse(s, SecretMismatch)
    else Reply(s, Ok, [])
  }

  /** INS 17. Completes the association. */
  function SaveSecretKeys(s: State, c: Command): (r: Reply<State>)
    ensures r.data == []
    ensures r.sw != Ok ==> r.state == s
    ensures r.sw == Ok <==> c.data == [] && !s.associated && s.desKey.Some? && s.seedXSaved
    ensures r.sw == Ok ==> r.state == s.(associated := true)
  {
    if |c.data| != 0 then Refuse(s, WrongLength)
    else if s.associated then Refuse(s, ConditionsNotSatisfied)
    else if s.desKey.None? || !s.seedXSaved then Refuse(s, KeyNotReady)
    else Reply(s.(associated := true), Ok, [])
  }

  /** INS 18. seedX arrives encrypted under the session key and is
      decrypted straight into its buffer. */
  function SaveShareSeedX(cr: Primitives, s: State, c: Command): (r: Reply<State>)
    ensures r.data == []
    ensures r.sw != Ok ==> r.state == s
    ensures r.sw == Ok <==> && c.p1 == SharedSeedLength as bv8 && !s.associated && s.desKey.Some?
                            && |c.data| % 8 == 0 && |c.data| <= SharedSeedLength
    ensures r.sw == Ok ==> && s.desKey.Some? && |c.data| % 8 == 0 && |c.data| <= SharedSeedLength
                           && r.state == s.(seedXSaved := true,
                                            seedX := CopyInto(s.seedX, Decrypt(cr, s.desKey.value, c.data)))
  {
    if c.p1 != SharedSeedLength as bv8 then Refuse(s, WrongLength)
    else if s.associated then Refuse(s, ConditionsNotSatisfied)
    else if s.desKey.None? then Refuse(s, KeyNotReady)
    else match DoFinal(cr, s.desKey, DecryptMode, c.data)
      case None => Refuse(s, Unknown)
      case Some(plain) =>
        if |plain| > SharedSeedLength then Refuse(s, Unknown)
        else Reply(s.(seedX := CopyInto(s.seedX, plain), seedXSaved := true), Ok, [])
  }

  /** INS 19. A fresh random seedY (`random`, from `RandomData`) is kept
      and answered encrypted under the key slot. */
  function RetrieveShareSeedY(cr: Primitives, s: State, c: Command, random: Bytes24): (r: Reply<State>)
    ensures r.sw != Ok ==> r.state == s && r.data == []
    ensures r.sw == Ok <==> c.p1 == 0 && c.data == [] && !s.associated && s.seedXSaved && s.desKey.Some?
    ensures r.sw == Ok ==> r.state == s.(seedY := random) && r.data == Encrypt(cr, s.desKey.value, random)
  {
    if c.p1 != 0 then Refuse(s, IncorrectP1P2)
    else if SignedLength(c) != 0 then Refuse(s, WrongLength)
    else if s.associated || !s.seedXSaved then Refuse(s, ConditionsNotSatisfied)
    else if s.desKey.None? then Refuse(s, KeyNotReady)
    else Reply(s.(seedY := random), Ok, Encrypt(cr, s.desKey.value, random))
  }

  /** The shareable-interface call of the BLE seed applet. The seed is
      first copied into the caller's buffer (`bufferLength` bytes) at
      `offset`; then 40 zero bytes are copied into the seed buffer at the
      same `offset`. `data` is what reached the caller's buffer. The first
      copy throws unless the seed fits the caller's buffer at `offset`; the
      second throws unless `offset` is 0. So at a non-zero offset that fits
      the caller's buffer the seed is disclosed and kept. A thrown exception
      is reported as `Unknown`. */
  function RetrieveBleSeed(s: State, bufferLength: nat, offset: int): (r: Reply<State>)
    ensures r.sw == Ok <==> offset == 0 && SeedLength <= bufferLength
    ensures r.sw == Ok ==> r.state == s.(bleSeed := Zeros(SeedLength))
    ensures r.sw != Ok ==> r.sw == Unknown && r.state == s
    ensures (0 <= offset && offset + SeedLength <= bufferLength) ==> r.data == s.bleSeed
    ensures !(0 <= offset && offset + SeedLength <= bufferLength) ==> r.data == []
  {
    if offset < 0 || offset + SeedLength > bufferLength then Refuse(s, Unknown)
    else if offset != 0 then Reply(s, Unknown, s.bleSeed)
    else Reply(s.(bleSeed := Zeros(SeedLength)), Ok, s.bleSeed)
  }

  /** `process`: the SELECT of the applet succeeds with nothing to do; other
      commands need class 0x90 and P2 = 0 and are dispatched on INS. Verify
      PIN (INS 13) is commented out of this build and is unknown. */
  function Process(cr: Primitives, s: State, m: Incoming, random: Bytes24): (r: Reply<State>)
    ensures m.Cmd? && m.cmd.cla != Cla ==> r == Refuse(s, ClaNotSupported)
    ensures m.Cmd? && m.cmd.cla == Cla && m.cmd.p2 != 0 ==> r == Refuse(s, IncorrectP1P2)
    ensures m.Select? ==> r == Reply(s, Ok, [])
  {
    match m
    case Select => Reply(s, Ok, [])
    case Cmd(c) =>
      match Screen(c)
      case Some(w) => Refuse(s, w)
      case None => Dispatch(cr, s, c, random)
  }

  function Dispatch(cr: Primitives, s: State, c: Command, random: Bytes24): (r: Reply<State>)
    ensures c.ins !in Instructions() ==> r == Refuse(s, InsNotSupported)
  {
    if c.ins == InsStoreName then StoreKeyFobName(cr, s, c)
    else if c.ins == InsGetName then GetKeyFobName(s, c)
    else if c.ins == InsStoreSerial then StoreKeyFobSerial(s, c)
    else if c.ins == InsGetSerial then GetKeyFobSerial(s, c)
    else if c.ins == InsAssociateStatus then AssociateStatus(s, c)
    else if c.ins == InsSaveSeed then SeedSave(cr, s, c)
    else if c.ins == InsAuthenticateSeed then SeedAuthenticate(cr, s, c)
    else if c.ins == InsGetPublicKey then GetPublicKey(s)
    else if c.ins == InsGenerateSecretKey then GenerateSecretKey(cr, s, c)
    else if c.ins == InsConfirmSecretKey then ConfirmSecretKey(cr, s, c)
    else if c.ins == InsSaveSecretKeys then SaveSecretKeys(s, c)
    else if c.ins == InsSaveSeedX then SaveShareSeedX(cr, s, c)
    else if c.ins == InsGetSeedY then RetrieveShareSeedY(cr, s, c, random)
    else Refuse(s, InsNotSupported)
  }

  /** The instruction bytes this build dispatches. */
  function Instructions(): set<byte>
  {
    {InsStoreName, InsGetName, InsStoreSerial, InsGetSerial, InsAssociateStatus, InsSaveSeed,
     InsAuthenticateSeed, InsGetPublicKey, InsGenerateSecretKey, InsConfirmSecretKey,
     InsSaveSecretKeys, InsSaveSeedX, InsGetSeedY}
  }
}

=== FILE: seed_keypair_proofs.dfy ===
/** Properties of the ORWL-build KeyFob applet: the association flag, the
    key slot, write-once identity fields, and the round trips with the host. */
module SeedKeypairProofs {
  import opened Wrappers
  import opened Bytes
  import opened Apdu
  import opened Cipher
  import opened SeedKeypair

  /** Relations between the persistent fields that every command keeps:
      whenever the key slot is set it holds the session key, seedX is only
      recorded once a key exists, and association needs seedX. */
  ghost predicate Consistent(s: State)
  {
    && (s.desKey.None? || s.desKey == Some(s.sharedSecret))
    && (s.seedXSaved ==> s.desKey.Some?)
    && (s.associated ==> s.seedXSaved)
  }

  lemma InstallConsistent(kp: EcKeyPair)
    ensures Consistent(Install(kp))
  {
  }

  lemma ProcessKeepsConsistent(cr: Primitives, s: State, m: Incoming, random: Bytes24)
    requires Consistent(s)
    ensures Consistent(Process(cr, s, m, random).state)
  {
  }

  /** The pairing steps that association shuts off. */
  function PairingInstructions(): (p: set<byte>)
    ensures p <= Instructions()
  {
    {InsGetPublicKey, InsGenerateSecretKey, InsConfirmSecretKey, InsSaveSeedX, InsGetSeedY, InsSaveSecretKeys}
  }

  /** No command clears the association flag. */
  lemma AssociationIsTerminal(cr: Primitives, s: State, m: Incoming, random: Bytes24)
    requires s.associated
    ensures Process(cr, s, m, random).state.associated
  {
  }

  /** The association flag is raised only by Save Secret Keys with no data,
      an initialised key slot and seedX saved. */
  lemma OnlySaveSecretKeysAssociates(cr: Primitives, s: State, m: Incoming, random: Bytes24)
    requires !s.associated
    requires Process(cr, s, m, random).state.associated
    ensures m.Cmd? && m.cmd.cla == Cla && m.cmd.p2 == 0 && m.cmd.ins == InsSaveSecretKeys
    ensures m.cmd.data == [] && s.desKey.Some? && s.seedXSaved
    ensures Process(cr, s, m, random) == Reply(s.(associated := true), Ok, [])
  {
  }

  /** Once associated, every pairing step fails and changes nothing. */
  lemma AssociatedRefusesPairing(cr: Primitives, s: State, m: Incoming, random: Bytes24)
    requires s.associated
    requires m.Cmd? && m.cmd.ins in PairingInstructions()
    ensures Process(cr, s, m, random).sw != Ok
    ensures Process(cr, s, m, random).state == s
  {
  }

  /** seedX is recorded only by Save SeedX with P1 = 24 before association
      and with a key in the slot. */
  lemma OnlySaveSeedXRecordsSeedX(cr: Primitives, s: State, m: Incoming, random: Bytes24)
    requires !s.seedXSaved
    requires Process(cr, s, m, random).state.seedXSaved
    ensures m.Cmd? && m.cmd.ins == InsSaveSeedX && m.cmd.p1 == 24
    ensures !s.associated && s.desKey.Some?
  {
  }

  /** Get SeedY is refused with 6985 until seedX has been saved. */
  lemma SeedYNeedsSeedX(cr: Primitives, s: State, c: Command, random: Bytes24)
    requires !s.seedXSaved
    requires c.cla == Cla && c.p2 == 0 && c.ins == InsGetSeedY && c.p1 == 0 && c.data == []
    ensures Process(cr, s, Cmd(c), random) == Refuse(s, ConditionsNotSatisfied)
  {
  }

  /** Store Name checks, in order: P1 = 19 (6700), not associated (6669),
      no name yet (6985); the first failing check decides, with nothing
      changed. */
  lemma StoreNameGuardOrder(cr: Primitives, s: State, c: Command)
    ensures var g := FirstFailure([Guard(c.p1 != 19, WrongLength),
                                   Guard(s.associated, KeyNotReady),
                                   Guard(s.nameSet, ConditionsNotSatisfied)]);
            g.Some? ==> StoreKeyFobName(cr, s, c) == Refuse(s, g.value)
  {
  }

  /** A name sent as the host's encryption of `plain` (19 to 127 bytes, a
      whole number of blocks) is stored as the first 19 bytes of `plain`. */
  lemma StoreNameKeepsFirst19(cr: Primitives, s: State, c: Command, k: Bytes24, plain: seq<byte>)
    requires Sound(cr)
    requires s.desKey == Some(k)
    requires c.p1 == 19 && !s.associated && !s.nameSet
    requires |plain| % 8 == 0 && NameLength <= |plain| < 128
    requires c.data == Encrypt(cr, k, plain)
    ensures StoreKeyFobName(cr, s, c).sw == Ok
    ensures StoreKeyFobName(cr, s, c).state.name == plain[..NameLength]
  {
    RoundTrip(cr, k, plain);
  }

  /** The name is write-once: once set, no command changes it. */
  lemma NameWriteOnce(cr: Primitives, s: State, m: Incoming, random: Bytes24)
    requires s.nameSet
    ensures Process(cr, s, m, random).state.name == s.name
    ensures Process(cr, s, m, random).state.nameSet
  {
  }

  /** The serial number is write-once: once set, no command changes it. */
  lemma SerialWriteOnce(cr: Primitives, s: State, m: Incoming, random: Bytes24)
    requires s.serialSet
    ensures Process(cr, s, m, random).state.serial == s.serial
    ensures Process(cr, s, m, random).state.serialSet
  {
  }

  /** A 4-byte serial number stored in plain is read back unchanged. */
  lemma SerialRoundTrip(s: State, store: Command, read: Command, serial: seq<byte>)
    requires !s.serialSet && |serial| == SerialLength
    requires store.p1 == 0 && store.data == serial
    requires read.p1 == 0 && read.data == []
    ensures StoreKeyFobSerial(s, store).sw == Ok
    ensures GetKeyFobSerial(StoreKeyFobSerial(s, store).state, read) == Reply(StoreKeyFobSerial(s, store).state, Ok, serial)
  {
  }

  /** The name is released only after association, exactly as stored. */
  lemma NameReadBack(cr: Primitives, s: State, c: Command, k: Bytes24, plain: seq<byte>, read: Command)
    requires Sound(cr)
    requires s.desKey == Some(k)
    requires c.p1 == 19 && !s.associated && !s.nameSet
    requires |plain| % 8 == 0 && NameLength <= |plain| < 128
    requires c.data == Encrypt(cr, k, plain)
    requires read.p1 == 0 && read.data == []
    ensures var named := StoreKeyFobName(cr, s, c).state;
            && GetKeyFobName(named, read).sw == KeyNotReady
            && GetKeyFobName(named.(associated := true), read).data == plain[..NameLength]
  {
    StoreNameKeepsFirst19(cr, s, c, k, plain);
  }

  /** For an agreed secret of 12 to 24 bytes the session key is the secret
      followed by its own first 24 - |secret| bytes, and the key slot holds it. */
  lemma GeneratedKeyLayout(cr: Primitives, s: State, c: Command)
    requires GenerateSecretKey(cr, s, c).sw == Ok
    requires 12 <= |cr.ecdh(s.keyPair.priv, c.data).value| <= 24
    ensures var raw := cr.ecdh(s.keyPair.priv, c.data).value;
            var t := GenerateSecretKey(cr, s, c).state;
            t.sharedSecret == raw + raw[..24 - |raw|] && t.desKey == Some(t.sharedSecret)
  {
    var raw := cr.ecdh(s.keyPair.priv, c.data).value;
    ExpandSecretRepeatsPrefix(s.sharedSecret, raw);
  }

  /** Confirmation succeeds exactly when the host sent the encryption of
      "ORWLKEYF" under the key in the slot. */
  lemma ConfirmIffEncryptedSample(cr: Primitives, s: State, c: Command, k: Bytes24)
    requires Sound(cr)
    requires s.desKey == Some(k) && !s.associated
    ensures ConfirmSecretKey(cr, s, c).sw == Ok <==> c.data == Encrypt(cr, k, SampleData)
    ensures |c.data| == 8 && c.data != Encrypt(cr, k, SampleData) ==> ConfirmSecretKey(cr, s, c).sw == SecretMismatch
  {
    if |c.data| == 8 {
      DecryptsTo(cr, k, c.data, SampleData);
    }
  }

  /** A BLE seed sent encrypted under seedX and then under the session key
      is stored as sent. */
  lemma SeedSaveRoundTrip(cr: Primitives, s: State, c: Command, seed: SeedBuffer)
    requires Sound(cr) && Consistent(s) && s.associated
    requires c.data == Encrypt(cr, s.sharedSecret, Encrypt(cr, s.seedX, seed))
    ensures SeedSave(cr, s, c).sw == Ok
    ensures SeedSave(cr, s, c).state.bleSeed == seed
  {
    RoundTrip(cr, s.sharedSecret, Encrypt(cr, s.seedX, seed));
    RoundTrip(cr, s.seedX, seed);
  }

  /** The host, holding the session key and seedY, recovers the challenge
      block from the answer. */
  lemma SeedAuthenticateRoundTrip(cr: Primitives, s: State, c: Command)
    requires Sound(cr)
    requires SeedAuthenticate(cr, s, c).sw == Ok
    ensures var answer := SeedAuthenticate(cr, s, c).data;
            Decrypt(cr, s.seedY, Decrypt(cr, s.sharedSecret, answer)) == ChallengeBlock(cr, s.bleSeed)
  {
    var inner := Encrypt(cr, s.seedY, ChallengeBlock(cr, s.bleSeed));
    RoundTrip(cr, s.sharedSecret, inner);
    RoundTrip(cr, s.seedY, ChallengeBlock(cr, s.bleSeed));
  }

  /** One command with the random bytes the card would draw for it. */
  datatype Step = Step(m: Incoming, random: Bytes24)

  /** The state after a sequence of commands. */
  function Run(cr: Primitives, s: State, steps: seq<Step>): (t: State)
    ensures s.associated ==> t.associated
    ensures s.nameSet ==> t.name == s.name
    decreases |steps|
  {
    if |steps| == 0 then s
    else
      var first := Process(cr, s, steps[0].m, steps[0].random).state;
      assert s.associated ==> first.associated by {
        if s.associated { AssociationIsTerminal(cr, s, steps[0].m, steps[0].random); }
      }
      assert s.nameSet ==> first.nameSet && first.name == s.name by {
        if s.nameSet { NameWriteOnce(cr, s, steps[0].m, steps[0].random); }
      }
      Run(cr, first, steps[1..])
  }

  lemma {:induction false} RunKeepsConsistent(cr: Primitives, s: State, steps: seq<Step>)
    requires Consistent(s)
    ensures Consistent(Run(cr, s, steps))
    decreases |steps|
  {
    if |steps| != 0 {
      ProcessKeepsConsistent(cr, s, steps[0].m, steps[0].random);
      RunKeepsConsistent(cr, Process(cr, s, steps[0].m, steps[0].random).state, steps[1..]);
    }
  }

  /** The dispatch table of `process`: each instruction byte reaches its
      handler once the class and P2 are accepted. */
  lemma Routes(cr: Primitives, s: State, c: Command, random: Bytes24)
    requires c.cla == Cla && c.p2 == 0
    ensures var r := Process(cr, s, Cmd(c), random);
            && (c.ins == 0x2C ==> r == StoreKeyFobName(cr, s, c))
            && (c.ins == 0x22 ==> r == GetKeyFobName(s, c))
            && (c.ins == 0x2A ==> r == StoreKeyFobSerial(s, c))
            && (c.ins == 0x20 ==> r == GetKeyFobSerial(s, c))
            && (c.ins == 0x14 ==> r == AssociateStatus(s, c))
            && (c.ins == 0x15 ==> r == SeedSave(cr, s, c))
            && (c.ins == 0x16 ==> r == SeedAuthenticate(cr, s, c))
            && (c.ins == 0x11 ==> r == GetPublicKey(s))
            && (c.ins == 0x12 ==> r == GenerateSecretKey(cr, s, c))
            && (c.ins == 0x10 ==> r == ConfirmSecretKey(cr, s, c))
            && (c.ins == 0x17 ==> r == SaveSecretKeys(s, c))
            && (c.ins == 0x18 ==> r == SaveShareSeedX(cr, s, c))
            && (c.ins == 0x19 ==> r == RetrieveShareSeedY(cr, s, c, random))
            && (c.ins == 0x13 ==> r == Refuse(s, InsNotSupported))
  {
  }

  /** A successful Store Name with no data keeps the APDU header in the
      name: the decryption of nothing leaves the buffer as received, and
      its first 19 bytes are copied. */
  lemma EmptyNameStoresHeader(cr: Primitives, s: State, c: Command)
    requires c.data == [] && StoreKeyFobName(cr, s, c).sw == Ok
    ensures StoreKeyFobName(cr, s, c).state.name[..5] == [c.cla, c.ins, c.p1, c.p2, 0]
    ensures StoreKeyFobName(cr, s, c).state.name[5..] == c.residue[..NameLength - 5]
  {
    var b := Buffer(c);
    assert Decrypt(cr, s.desKey.value, c.data) == [];
    assert CopyInto(b, []) == b;
  }

  /** A fresh token has no seed: retrieving one hands out 40 zero bytes. */
  lemma UnsavedSeedIsZeros(kp: EcKeyPair, bufferLength: nat)
    requires SeedLength <= bufferLength
    ensures RetrieveBleSeed(Install(kp), bufferLength, 0) == Reply(Install(kp), Ok, Zeros(SeedLength))
  {
  }

  /** A stored seed is handed out once, at offset 0; a second retrieval
      hands out 40 zero bytes. */
  lemma SavedSeedHandedOutOnce(cr: Primitives, s: State, c: Command, seed: SeedBuffer, bufferLength: nat)
    requires Sound(cr) && Consistent(s) && s.associated
    requires c.data == Encrypt(cr, s.sharedSecret, Encrypt(cr, s.seedX, seed))
    requires SeedLength <= bufferLength
    ensures var saved := SeedSave(cr, s, c).state;
            var first := RetrieveBleSeed(saved, bufferLength, 0);
            && first.sw == Ok && first.data == seed
            && RetrieveBleSeed(first.state, bufferLength, 0).data == Zeros(SeedLength)
  {
    SeedSaveRoundTrip(cr, s, c, seed);
  }

  /** At a non-zero offset that fits the caller's buffer the seed reaches
      the caller before the wipe throws, so it is disclosed and kept. */
  lemma MisplacedRetrievalKeepsSeed(s: State, bufferLength: nat, offset: int)
    requires 0 < offset && offset + SeedLength <= bufferLength
    ensures RetrieveBleSeed(s, bufferLength, offset) == Reply(s, Unknown, s.bleSeed)
  {
  }
}

=== FILE: seed_keypair_scenario.dfy ===
/** The ORWL-build pairing protocol as the host drives it, command by
    command, from installation to a stored BLE seed. */
module SeedKeypairScenario {
  import opened Wrappers
  import opened Bytes
  import opened Apdu
  import opened Cipher
  import opened SeedKeypair
  import opened SeedKeypairProofs

  /** A well-formed command of this applet. */
  function Send(ins: byte, p1: byte, data: Payload): (m: Incoming)
    ensures m.Cmd? && m.cmd.cla == Cla && m.cmd.p2 == 0
  {
    Cmd(Command(Cla, ins, p1, 0, data, []))
  }

  /** The handshake up to the saved seedX: the host reads the public key,
      sends its own point, confirms the session key and sends seedX. */
  lemma Handshake(cr: Primitives, kp: EcKeyPair, peer: Payload, seedX: Bytes24, random: Bytes24)
    requires Sound(cr)
    requires |peer| < 128
    requires cr.ecdh(kp.priv, peer).Some? && 12 <= |cr.ecdh(kp.priv, peer).value| <= 24
    ensures var raw := cr.ecdh(kp.priv, peer).value;
            var k: Bytes24 := raw + raw[..24 - |raw|];
            var s0 := Install(kp);
            var r1 := Process(cr, s0, Send(InsGetPublicKey, 0, []), random);
            var r2 := Process(cr, r1.state, Send(InsGenerateSecretKey, 0, peer), random);
            var r3 := Process(cr, r2.state, Send(InsConfirmSecretKey, 0, Encrypt(cr, k, SampleData)), random);
            var r4 := Process(cr, r3.state, Send(InsSaveSeedX, 24, Encrypt(cr, k, seedX)), random);
            && r1 == Reply(s0, Ok, kp.pub)
            && r2.sw == Ok && r2.state.sharedSecret == k && r2.state.desKey == Some(k)
            && r3 == Reply(r2.state, Ok, [])
            && r4.sw == Ok && r4.state.seedX == seedX && r4.state.seedXSaved
            && r4.state == r2.state.(seedX := seedX, seedXSaved := true)
  {
    var raw := cr.ecdh(kp.priv, peer).value;
    var k: Bytes24 := raw + raw[..24 - |raw|];
    var s0 := Install(kp);
    var c2 := Command(Cla, InsGenerateSecretKey, 0, 0, peer, []);
    GeneratedKeyLayout(cr, s0, c2);
    var s2 := GenerateSecretKey(cr, s0, c2).state;
    assert s2.desKey == Some(k);
    var c3 := Command(Cla, InsConfirmSecretKey, 0, 0, Encrypt(cr, k, SampleData), []);
    ConfirmIffEncryptedSample(cr, s2, c3, k);
    RoundTrip(cr, k, seedX);
    assert CopyInto(s2.seedX, seedX) == seedX;
  }

  /** After the handshake: seedY is drawn, challenge answers are refused
      until Save Secret Keys associates, a second Save Secret Keys is
      refused, and the seed stored afterwards answers challenges the host
      can check. */
  lemma Association(cr: Primitives, s: State, seedY: Bytes24, seed: SeedBuffer)
    requires Sound(cr)
    requires Consistent(s) && s.desKey.Some? && s.seedXSaved && !s.associated
    ensures var k := s.sharedSecret;
            var r1 := Process(cr, s, Send(InsGetSeedY, 0, []), seedY);
            var r2 := Process(cr, r1.state, Send(InsAuthenticateSeed, 0, []), seedY);
            var r3 := Process(cr, r1.state, Send(InsSaveSecretKeys, 0, []), seedY);
            var r4 := Process(cr, r3.state, Send(InsSaveSecretKeys, 0, []), seedY);
            var r5 := Process(cr, r3.state, Send(InsSaveSeed, 0, Encrypt(cr, k, Encrypt(cr, s.seedX, seed))), seedY);
            var r6 := Process(cr, r5.state, Send(InsAuthenticateSeed, 0, []), seedY);
            && r1.sw == Ok && Decrypt(cr, k, r1.data) == seedY
            && r2 == Refuse(r1.state, ConditionsNotSatisfied)
            && r3.sw == Ok && r3.state.associated
            && r4 == Refuse(r3.state, ConditionsNotSatisfied)
            && r5.sw == Ok && r5.state.bleSeed == seed
            && r6.sw == Ok
            && Decrypt(cr, seedY, Decrypt(cr, k, r6.data)) == ChallengeBlock(cr, seed)
  {
    var k := s.sharedSecret;
    RoundTrip(cr, k, seedY);
    var s1 := s.(seedY := seedY);
    var s3 := s1.(associated := true);
    var c5 := Command(Cla, InsSaveSeed, 0, 0, Encrypt(cr, k, Encrypt(cr, s.seedX, seed)), []);
    SeedSaveRoundTrip(cr, s3, c5, seed);
    var s5 := SeedSave(cr, s3, c5).state;
    assert s5 == s3.(bleSeed := seed);
    SeedAuthenticateRoundTrip(cr, s5, Command(Cla, InsAuthenticateSeed, 0, 0, [], []));
  }
}

=== FILE: wrappers.dfy ===
/** Optional values, used for Java references that may be null and for
    operations that may throw. */
module Wrappers {

  datatype Option<+T> = None | Some(value: T)

}
